=== FILE: README.md ===
# Percipio catalog sync, modelled in Dafny

This project models the catalog-sync engine of the Moodle admin tool
`tool_percipioexternalcontentsync`. It has three parts:

- **Mapper and reconciler** (`classes/helper.php`).
  - A Percipio catalog asset becomes an External Content import record: the derived category, the pipe-joined tags, the truncated names and the visibility and completion flags.
  - The record is validated.
  - Its leaf category is found or created under the configured parent.
  - The course and its External Content activity are created, merged or left alone. This is decided by comparing them with what the store holds for the record's id-number.
  - The activity's course module is linked to the course's completion criteria.
- **Paging client** (`classes/apiclient.php`).
  - `make_call` builds the request and turns a reply into a result or a web-service exception.
  - `get_catalog_content` fills in the request defaults.
  - `get_all_catalog_content` follows the paging protocol: the offset moves on by the page size, the paging request id is latched, and the loop stops once the `x-total-count` of the latest page has been received.
- **Scheduled task** (`classes/task/percipiosync.php`).
  - `get_all_metadata` follows the same paging and imports every asset, counting successes and failures.
  - `execute` checks the settings in a fixed order, runs the sync, and moves the `updatedsince` watermark to the run's start time only when the run finishes.

The Moodle database is an abstract store (`Store.Store`):

- It holds sequences of categories, courses, activities and course modules, with ids equal to positions plus one.
- It also holds sets of completion criteria and aggregation records.
- A lookup returns the first matching row.

PHP exceptions are a `Result` value (`Php.Result`). A PHP `Error` (a `TypeError` from `count()` or `array_merge` on a JSON object) is a separate failure kind, because `execute`'s `catch (\Exception $e)` does not catch it.

The server is a scripted sequence of replies. Each call consumes the next one. Each loop is written twice:

- as a method in the source's imperative style (`ApiClient.GetAllCatalogContent`, `Sync.GetAllMetadata`);
- as a recursive reference definition (`ApiClient.CatalogFrom`, `Sync.MetadataFrom`) that the method is proved to compute.

Files:

| file | module | what it holds |
|---|---|---|
| php.dfy | Php | `Option`, `Result`, failures; the PHP built-ins the core relies on: `empty`, `substr`, `trim`, `implode`/`explode`, `strtolower`, `strcasecmp`, `intval`, integer to string |
| sorting.dfy | StringSort | PHP `sort()` on string arrays: a sorted permutation, unique per multiset |
| store.dfy | Store | the abstract Moodle tables, lookups and writes, and the well-formedness invariant `Valid` |
| categories.dfy | Categories | `resolve_category_by_id_or_idnumber`, `get_or_create_category_from_import_record` |
| mapper.dfy | Mapper | asset, category derivation, tags, import record, validation |
| reconciler.dfy | Reconciler | course and activity construction, the two merges, completion criteria, `import_percio_asset` |
| convergence.dfy | Convergence | what an import writes, and why a second import of the same asset writes nothing |
| paging.dfy | Paging | request defaults and the cursor step both loops share |
| apiclient.dfy | ApiClient | `make_call`, `get_catalog_content`, `get_all_catalog_content` |
| sync.dfy | Sync | `get_all_metadata`, `execute` |

## Behaviour worth knowing

Each of these is what the code does, and what the model does with it.

- **Tags.** The sync trims the tags and joins them with `|`. It neither truncates nor de-duplicates them; Moodle's tag API does both when the course is saved (see Left out).
- **Parent category given as an id-number.** The lookup uses `MUST_EXIST`, so a missing one throws. Nothing in `get_all_metadata` catches per item, so the whole run ends rather than counting one failed asset.
- **`x-total-count`.** Both loops re-read it from every page and compare it with the running count, so a total that changes between pages changes when the loop stops.
- **Undecodable JSON.** A body that does not decode becomes `null`, which `get_catalog_content` turns into an empty list, so the page counts as empty.
- **Paging request id.** While the held id is empty, each page that asks for more copies it from its header; once a non-empty id is held, later headers are ignored.

## Model

| member | source | states |
|---|---|---|
| Php.Substr | classes/helper.php:238-239 | `substr($s, 0, n)` is the prefix of `s` of length n, or all of `s` when it is shorter (counted in characters here, in bytes in PHP) |
| Php.Trim | classes/helper.php:201 | the trimmed string has no whitespace at either end, and a string with none is left as it is |
| Php.TrimCutsTrimmed | classes/helper.php:201 | `trim` keeps one contiguous piece of the string and cuts only whitespace from either side of it |
| Php.ExplodeImplode | classes/helper.php:595 | splitting on the separator inverts joining a non-empty list of pieces that do not contain it |
| Php.ImplodeExplode | classes/helper.php:595 | joining the pieces of a split gives back the string |
| Php.ToLower | classes/helper.php:155 | lower-casing keeps the length and leaves no upper-case ASCII letter |
| Php.IntValOfIntToString | classes/apiclient.php:295 | `intval` reads back an integer written in decimal, whatever non-digit text follows |
| StringSort.Sort | classes/helper.php:624-625 | `sort()` returns a sorted permutation of the tags |
| StringSort.SortedUnique | classes/helper.php:624-625 | two sorted lists with the same multiset of tags are equal |
| StringSort.SortEqualIff | classes/helper.php:622-625 | two tag lists sort to the same list if and only if one is a permutation of the other |
| StringSort.SortIdempotent | classes/helper.php:624-625 | sorting already sorted tags changes nothing |
| Store.ActivityByIdnumberAt | classes/helper.php:667-679 | on a valid store, the activity lookup by id-number and course returns the instance of the first course module with that id-number in that course |
| Categories.ResolveParent | classes/helper.php:484-515 | null gives the default category; a number gives itself exactly when a category has that id, and null otherwise; an id-number throws exactly when no category has it, and otherwise gives that category's id |
| Categories.GetOrCreateCategory | classes/helper.php:523-547 | an empty id-number gives the parent; a known id-number gives its id and writes nothing; an unknown id-number with an empty name gives the lookup's false; otherwise exactly one category (parent, name, id-number) is appended and its id returned, and the lookup then finds it |
| Categories.GetOrCreateCategoryIdempotent | classes/helper.php:523-547 | a second get-or-create on the categories the first one left returns the same category and writes nothing |
| Categories.ResolveParentStable | classes/helper.php:500-514 | appending categories never makes a resolvable parent throw, and a parent that resolved to an id still resolves to it |
| Mapper.AssetCategory | classes/helper.php:132-161 | channel and journey assets (any case) get their own id and title with the first locale; the five leaf kinds get their first channel's id and title; an unknown kind, a leaf without a channel, or an empty id or title gives "" |
| Mapper.LeafCategoryPerChannel | classes/helper.php:135-159 | leaf assets with the same first channel and locale land in the same category |
| Mapper.TagList | classes/helper.php:169-199 | the tags are the display label, then the own title (channel or journey) or all channel titles then all journey titles, then the keywords, areas and subjects, in order; every entry the asset carries appears, a missing title as the empty string |
| Mapper.TagsRoundTrip | classes/helper.php:592-596 | splitting the joined tag string on the pipe character gives back the trimmed tags when none of them contains a pipe; an empty tag string gives no tags |
| Reconciler.CourseTagsDetermined | classes/helper.php:592-596 | any pipe-free tag list that joins to a non-empty tag string is the list the course gets |
| Reconciler.RecordCourseTags | classes/helper.php:592-596 | a course built from an asset's record carries the asset's trimmed tags in order, when none holds a pipe, and no tags when the joined string is empty |
| Mapper.ToImportRecord | classes/helper.php:212-252 | id-number is the xAPI activity id; full name and external name are the prefix of the title of length min(255, its length), counted in characters (bytes in PHP); the short name is the title cut to 215 characters (bytes in PHP) plus " (id)"; visible is 1 exactly when the status is ACTIVE in any case; the mark-complete-externally flag is 0 exactly when the type is CHANNEL in any case; summary and intro are the plain rendering, content the full one; the tags are the asset's joined tag string, the thumbnail its image URL, and the three print options the configured defaults |
| Mapper.AssetToImport | classes/helper.php:229-230 | building a record throws exactly when the parent category does not resolve |
| Mapper.ValidRecordOfAsset | classes/helper.php:453-461 | an asset's record passes validation exactly when its xAPI id, its title and both renderings are non-empty in PHP's sense, so "" and "0" fail |
| Reconciler.CourseFromImported | classes/helper.php:583-613 | the course carries the record's id-number, names, summary and visibility; it has no tags exactly when the tag string is empty, and otherwise tags that join back to the tag string and none of which holds a pipe, which pins them (`Reconciler.CourseTagsDetermined`); its category is the get-or-create result, which is the only write; it has the fixed single-activity, completion-on settings |
| Reconciler.MergeCourse | classes/helper.php:622-644 | the merge reports no change exactly when names, id-number, visibility, category and the tag multiset agree and the stored summary equals the imported one or its formatted form; otherwise the merged course keeps the existing id and other settings, takes the imported fields and the imported tags sorted, and takes the imported summary only when the stored one differs from its formatted form |
| Reconciler.MergeCourseIdempotent | classes/helper.php:622-644 | merging the same import into a merge result reports no change |
| Reconciler.MergeCourseTagOrder | classes/helper.php:624-625 | the order of the imported tags does not affect the merge |
| Reconciler.DisplayOptions | classes/helper.php:700-711 | each display option is present exactly when its default is set, only the three option keys occur, and they stand in the order heading, intro, last-modified; `printlastmodified` carries the `printintro` value |
| Reconciler.ActivityFromImported | classes/helper.php:687-714 | the activity carries the record's name, intro, content and mark-complete-externally flag, the display options, completion 2 and completion-view 1 |
| Reconciler.CleanBool | classes/helper.php:729 | `clean_param(PARAM_BOOL)` on an integer gives 0 exactly for 0, and 1 otherwise |
| Reconciler.MergeActivity | classes/helper.php:723-738 | the merge reports no change exactly when name, intro, content, the cleaned completion flag and the display options agree; otherwise the merged activity keeps id, course and other settings and takes those five fields |
| Reconciler.MergeActivityIdempotent | classes/helper.php:723-738 | merging the same import into a merge result reports no change |
| Reconciler.UpdateCompletionCriteria | classes/helper.php:747-782 | nothing is written when the course already has the module's criterion; otherwise the criterion and the four aggregation records (overall, activity, course, role) are added, and nothing else changes |
| Reconciler.LinkModule | classes/helper.php:364-367 | linking throws exactly when no course module has the instance; otherwise, on a valid store, the module row of that instance, and no other row, gets the id-number, the (course, module) criterion is recorded, and the category, course and activity tables are unchanged |
| Reconciler.Thumbnail | classes/helper.php:302-315 | no URL means no status; thumbnails off means "skipped"; otherwise the download's status, with a warning exactly when it failed |
| Reconciler.ApplyRecord | classes/helper.php:288-433 | an invalid record is reported as a failure with the invalid-record error, no statuses and no ids, and writes nothing; an import that returns succeeds exactly when the record is valid |
| Reconciler.ImportAsset | classes/helper.php:263-434 | an unresolvable parent throws; the reported short name is the truncated title plus " (id)"; an unsuccessful import leaves the store untouched and reports only the invalid-record error |
| Convergence.CreateAndLink | classes/helper.php:360-371 | on a valid store, creating an activity and linking it never throws; it appends the activity and its module carrying the id-number, records the criterion, and keeps courses, categories and validity |
| Convergence.CreatedActivityFound | classes/helper.php:319-344 | after a create-and-link in a course without that id-number, the lookup finds the new activity, and merging the same import into it reports no change |
| Convergence.UpdateAndLink | classes/helper.php:373-382 | an activity whose merge changes it is overwritten in place under its id, the module rows stay as they were, and the store stays valid |
| Reconciler.SyncActivity | classes/helper.php:317-383 | with no module carrying the id-number in the course, the activity is created there under the next id and linked without throwing; with one, nothing is written and "not updated" is reported exactly when the merge changes nothing, and otherwise the merged row is stored under the existing id and "updated" is reported |
| Convergence.SyncActivityIdempotent | classes/helper.php:317-383 | whatever the activity sync does (create, update or nothing), running it again on the store it left reports "not updated" and writes nothing |
| Convergence.NewCourseCreates | classes/helper.php:384-423 | a course not yet in the store is appended; then one activity is appended in it, whose course module carries the course id-number and gets the completion criterion; both are reported as created, with their ids |
| Convergence.NewCourseIdempotent | classes/helper.php:384-423 | after the create path the course is what its id-number finds, and importing it again reports course and activity "not updated", with the same ids and no write |
| Convergence.ExistingCourseIdempotent | classes/helper.php:294-383 | after the merge path the course is still found by its id-number, and importing it again reports nothing to update, with the same ids and no write |
| Convergence.ExistingCourseUnchanged | classes/helper.php:346-348 | when the course merge and the activity sync both find nothing to change, the import writes nothing and reports course and activity "not updated" |
| Convergence.ApplyRecordIdempotent | classes/helper.php:288-423 | on a valid store a valid record imports without throwing, keeps the store valid, only appends categories, and a second import of it repeats the first without writing |
| Convergence.ImportAssetIdempotent | classes/helper.php:263-434 | on a valid store with a resolvable parent, importing an asset never throws, and importing it a second time writes nothing and reports "not updated" (or the same rejection) |
| Convergence.ImportAssetSafe | classes/helper.php:263-434 | on a valid store with a resolvable parent, an import never throws, keeps the store valid and the default category, and only appends categories |
| Paging.Defaults | classes/apiclient.php:232-247 | an empty offset becomes 0, an empty page size 1000, an empty paging id or start date null; every non-empty parameter is kept |
| Paging.DefaultsStable | classes/apiclient.php:268-289 | the loop's data, once defaulted, passes through the single-page call's defaults unchanged |
| Paging.Advance | classes/apiclient.php:297-302 | the next page moves the offset on by the page size; a non-empty held paging id is kept, an empty one is replaced by the response's header |
| Paging.AdvanceAllOffset | classes/apiclient.php:301 | after k pages the offset has moved on by k page sizes, and page size and start date never change |
| Paging.AdvanceAllKeepsId | classes/apiclient.php:298-300 | once a non-empty paging id is held, it is never overwritten |
| Paging.LatchFirstId | classes/apiclient.php:298-300 | starting without a paging id, the first page's non-empty id is the one every later request carries |
| ApiClient.BuildRequest | classes/apiclient.php:166-177 | the URL is base URL plus path and the method is lower-cased; the bearer header is always sent; a JSON content type is sent exactly for non-GET calls, which JSON-encode a parameter array; a GET sends its data unchanged |
| ApiClient.ErrorTail | classes/apiclient.php:192-208 | an error body adds nothing after the status when empty, otherwise text starting with "." and, for an `errors` list, ending with its entries' details |
| ApiClient.ErrorDetailsAppend | classes/apiclient.php:199-207 | the entries of an error list contribute their " Code: …" and optional " Message: …" texts one after the other, in order |
| ApiClient.ErrorMessageStatus | classes/apiclient.php:192-215 | the exception detail names the reply's HTTP status |
| ApiClient.MakeCall | classes/apiclient.php:166-224 | a curl error throws with curl's message before the status is looked at; a status of 400 or more throws, with exactly "HTTP Status: N" for an empty body and otherwise "HTTP Status: N." followed by the parsed error parts and each listed error's code and message; any other status returns that status, the decoded body and the headers |
| ApiClient.CatalogRequest | classes/apiclient.php:232-249 | the catalog call is a GET of the organisation's catalog-content path with the defaulted parameters |
| ApiClient.GetCatalogContent | classes/apiclient.php:232-253 | the single-page call throws a web-service error exactly on a curl error or a status of 400 or more; otherwise it returns the reply's headers and its body, with null read as an empty list |
| ApiClient.MergePage | classes/apiclient.php:290-294 | a page's assets are appended to those gathered so far; a JSON object body is a PHP Error, not an exception |
| ApiClient.FetchStep | classes/apiclient.php:285-307 | one page ends the loop with a failure exactly when the call threw or the body was an object; the loop goes on, from the advanced cursor, exactly when fewer assets than the page's total have been gathered; otherwise it completes with all gathered assets |
| ApiClient.CatalogRequestCount | classes/apiclient.php:284-308 | the loop sends at least one request when a reply is available, and never more requests than there are replies |
| ApiClient.CatalogRequestAt | classes/apiclient.php:284-308 | the k-th request is the catalog call for the start cursor advanced by the headers of the k pages before it |
| ApiClient.CatalogParamsAt | classes/apiclient.php:297-301 | the k-th request asks for offset start + k·max, with the same page size and start date; a supplied paging id is always sent, otherwise from the second request on the first page's non-empty id |
| ApiClient.CatalogAssets | classes/apiclient.php:290-294 | a loop that did not fail has gathered exactly the pages' assets in request order |
| ApiClient.CatalogCompleteReachesTotal | classes/apiclient.php:294-305 | a completed loop has gathered at least the total its last page announced |
| ApiClient.FetchPage | classes/apiclient.php:285-307 | one iteration as written sends the catalog call for the current cursor and computes the reference page step |
| ApiClient.GetAllCatalogContent | classes/apiclient.php:263-311 | the loop computes the reference run: no more requests than replies, each request the call for the cursor advanced by the earlier pages' headers, and unless it failed all the pages' assets in order |
| ApiClient.CatalogRun | classes/apiclient.php:284-310 | the same three facts about the reference run from any start cursor |
| Sync.ImportStep | classes/task/percipiosync.php:145-161 | an import that returns counts one success when its result reports success and one failure otherwise, and the batch continues on the import's store; a throw is recorded as the batch's failure and leaves counters and store as they were |
| Sync.ImportFrom | classes/task/percipiosync.php:145-162 | counters never decrease; a page imported without a throw counts each of its assets exactly once |
| Sync.ImportFromAppend | classes/task/percipiosync.php:145-162 | importing two runs of assets in turn is importing their concatenation, so assets are processed once each, in order |
| Sync.AssetImporterSafe | classes/task/percipiosync.php:146-148 | on a valid store whose parent resolves, `import_percio_asset` never throws, and the store stays so |
| Sync.ImportFromSafe | classes/task/percipiosync.php:145-162 | with such an import no asset of a page throws and the store stays workable |
| Sync.MetadataCursor | classes/task/percipiosync.php:92-111 | the task starts at offset 0, with page size and start date and paging id overridden only by non-empty arguments, which is the client's defaulting of those arguments |
| Sync.ReadPage | classes/task/percipiosync.php:127-130 | a page yields assets exactly when the call did not throw and its body is not an object; a throw is an exception exactly on a curl error or a status of 400 or more |
| Sync.PageStep | classes/task/percipiosync.php:128-166 | a page adds its size to the downloaded count and, unless an import threw, exactly one success or failure per asset; the loop goes on from the advanced cursor only while fewer than the page's total were downloaded, and finishes only when the total is reached |
| Sync.MetadataCounts | classes/task/percipiosync.php:130-160 | a run that did not abort has success + failed = downloaded, and downloaded is the number of assets on the pages it asked for |
| Sync.MetadataFinishedReachesTotal | classes/task/percipiosync.php:131-141 | a finished run has downloaded at least its last page's total |
| Sync.PageStepSafe | classes/task/percipiosync.php:145-162 | with a safe import, a page keeps the store workable and aborts only when the page itself failed |
| Sync.MetadataSafe | classes/task/percipiosync.php:121-167 | with a safe import the store stays workable, and a run aborts only on its last request: with an exception exactly when the server refused it, and otherwise with a PHP Error, because the body was a JSON object |
| Sync.StepsAgree | classes/task/percipiosync.php:128-141 | with a safe import, a page of the task and a page of the client loop go on together, from the same cursor and count, and end the same way |
| Sync.MetadataFollowsCatalog | classes/task/percipiosync.php:121-167 | with a safe import, `get_all_metadata` sends exactly the requests `get_all_catalog_content` sends, and finishes, aborts or runs out exactly when that loop completes, fails or runs out |
| Sync.ImportPage | classes/task/percipiosync.php:145-162 | the `foreach` as written computes the reference batch import |
| Sync.ProcessPage | classes/task/percipiosync.php:127-166 | one iteration as written (count, advance, then import) computes the reference page step |
| Sync.GetAllMetadata | classes/task/percipiosync.php:85-177 | the loop as written computes the reference run, and a run that did not abort has counted success + failed = downloaded |
| Sync.MissingSetting | classes/task/percipiosync.php:194-206 | the first empty setting, in the order category, base URL, organisation id, bearer token, is the one reported; none exactly when all four are set |
| Sync.Conclude | classes/task/percipiosync.php:216-232 | a finished run returns true and sets the watermark to the start time; an exception returns false with the watermark untouched; a PHP Error escapes; the store keeps the run's writes |
| Sync.Execute | classes/task/percipiosync.php:185-233 | a missing setting returns false with no request and no write; the task returns true exactly when all settings are present and the run finished; the watermark becomes the start time exactly then and no other setting changes |
| Sync.TaskRunSafe | classes/task/percipiosync.php:219-223 | the task's own run on a workable store is safe |
| Sync.ConcludeSafe | classes/task/percipiosync.php:216-232 | concluding a safe run crashes only on an object body, returns false only on a refused page, and keeps the run's workable store |
| Sync.ExecuteOnWorkableStore | classes/task/percipiosync.php:216-230 | with all settings present and a workable store, the task crashes only when the last page's body was an object, returns false only when the server refused the last page, and leaves the store workable |

## Left out

- Network and curl are not modelled. A reply is given as `(errno, curl error, status, body, decoded body, headers)`. Header parsing, JSON decoding and curl's accumulation of header lines across calls are not modelled.
- Server that never reaches the total: the source would keep requesting forever. Here the replies run out, and the loops end with `OutOfReplies` or `Unanswered`. `execute` then ends in `Waiting`, for which the source has no counterpart.
- Parsed error text: the `error` field of an error body is read from the raw response string, so it contributes only " Parsed Error: .". Its value is not modelled.
- Categories.ResolveParent: `is_numeric` is not evaluated. The setting arrives already classified as null, a number or an id-number.
- Reconciler.Thumbnail: `add_course_thumbnail`, with its download and file checks, is an abstract function of the environment. So is the file-manager update of a created course after its thumbnail (helper.php:400-407).
- Templates and presentation: Mustache rendering, `DateInterval` formatting and locale display names are one abstract rendering function of the asset. `format_text` is an abstract function too.
- Reconciler.CleanBool: `clean_param` is modelled only on the integers the record holds.
- StringSort.Sort: PHP `sort()` compares numeric strings as numbers. The model compares strings by character code only.
- Reconciler.MergeCourse and Reconciler.MergeActivity: PHP's loose `!=` on objects is modelled as structural equality of the modelled fields (helper.php:640, 734). PHP compares two numeric strings as numbers, so names such as "1.0" and "1", or "10" and "1e1", count as equal there. The source then reports no change, and the model reports one. The same goes for the other string fields compared.
- Php.IntValOfIntToString: `intval` is modelled for optional leading whitespace, a sign and decimal digits. Exponents, other bases and the saturation at PHP's integer limits are not modelled. Counters are unbounded integers.
- Partial writes: a throwing import's writes are dropped from the store. In the model no import on a valid store with a resolvable parent throws (`Convergence.ImportAssetSafe`), but the model's store writes never fail, so this says nothing about writes Moodle itself refuses.
- Sync.GetAllMetadata: takes the per-asset import as a parameter. The task passes `import_percio_asset` (`Sync.AssetImporter`).
- Convergence.ImportAssetIdempotent: stated for valid stores and resolvable parents, which the task's own run keeps (`Sync.TaskRunSafe`). On other stores no promise is made.
- Convergence.ImportAssetIdempotent: does not hold in Moodle for an existing course whose imported category is null or `false` (the two causes in the Convergence.ImportAssetSafe line below). Moodle's `update_course` drops a null, 0 or false category and keeps the course where it was. So the next run's merge again sees a different category, reports a change, and updates the course on every run (helper.php:634, 640, 352). The model's `Store.UpdateCourse` stores the empty category as given, so its second import writes nothing.
- Convergence.ImportAssetIdempotent: holds of the abstract store, whose writes store exactly what they are given. Moodle's tag API folds tags that repeat up to case and cuts each tag to 50 characters, so an asset with such tags reads back differently and is updated again on every run (helper.php:560-571). This is not modelled.
- Convergence.ImportAssetSafe: holds of the abstract store, whose writes never fail. An imported course can end up with no category in two ways. First, the parent setting is a numeric id with no category behind it, so it resolves to null (helper.php:502-506). Second, a leaf category whose id-number is unknown and whose title is empty leaves the category `false` (helper.php:536-546; `LookupFalse` in the model). For a new course, Moodle's `create_course` then throws (helper.php:385). The model's store accepts any category value, so it does not model that failure. The same gap applies to Sync.AssetImporterSafe, Sync.MetadataSafe, Sync.TaskRunSafe and Sync.ExecuteOnWorkableStore, which rest on this lemma.
- Mapper.ToImportRecord: PHP's `substr` cuts bytes and the model cuts characters. The two agree only when every character of the title up to the cut is a single byte. A multi-byte title can be cut mid-character in PHP, which the model does not show.
- Mapper.TagList: `array_column` skips a channel or journey that has no `title`, while the model reads a missing title as the empty string and keeps the entry (helper.php:182, 185). An asset with no `keywords` at all makes `count(null)` throw a TypeError in PHP 8. The model reads the missing list as empty (helper.php:189).
- Reconciler.UpdateCompletionCriteria: the source's early exit fetches with `'id' => $course->id`, which matches the criterion row's own id against the course id (helper.php:750-751). That test is true only by accident of numbering. The model tests what the call evidently means: whether the course already has a criterion for the module.
- PHP Error messages are fixed texts, not PHP's exact wording.
- Reconciler.DisplayOptions: the `printlastmodified` option is kept as written, carrying the `printintro` value.
- Output and environment: trace output, the `moduleid` and `message` fields the task prints, time and memory limits, and the reuse of an already constructed client are not modelled.
- Clock: the clock is a parameter. It supplies the start-date of a created course and the start timestamp of `execute`.
- Files outside the core: the settings page, `index.php` and the string table are not part of this model.
- Reconciler.ImportNewCourse and Reconciler.ImportExistingCourse: their own contracts state only success and the short name. What they write and report is stated by `Convergence.NewCourseCreates`, `Convergence.ExistingCourseUnchanged` and the idempotence lemmas.
- Sync.MetadataCounts: counts are stated only for runs that did not abort. An aborted page has counted only the assets before the throw.

=== FILE: apiclient.dfy ===
/**
  The Percipio REST client: how a call is put together, how a reply is
  classified into a result or a web-service error, the single-page catalog
  call, and the loop that follows the paging protocol until the server's
  announced total has been received.

  The network is a parameter: each call consumes the next `Reply` of a
  scripted server, so a loop that would keep asking a server that never
  stops ends here with `OutOfReplies` instead.
 */
module ApiClient {
  import opened Php
  import opened Mapper
  import opened Paging

  datatype Client = Client(baseurl: string, orgid: string, bearer: string)

  /**
    The data attached to a call: a PHP array of parameters, a string, or the
    JSON text a parameter array becomes on a call that is not a GET.
   */
  datatype Payload = Params(params: map<string, Value>) | Raw(text: string) | JsonOf(params: map<string, Value>)

  /** What the client hands to curl. */
  datatype Request = Request(verb: string, url: string, headers: seq<string>, payload: Payload)

  const AuthorizationPrefix: string := "Authorization: Bearer "
  const JsonContentType: string := "Content-Type: application/json"

  /**
    The request `make_call` sends: the path appended to the base URL, the
    method lower-cased, the bearer token always, and for anything but a GET a
    JSON content type with a parameter array encoded as JSON.
   */
  function BuildRequest(c: Client, path: string, data: Payload, verb: string): (r: Request)
    ensures r.url == c.baseurl + path
    ensures r.verb == ToLower(verb)
    ensures |r.headers| >= 1 && r.headers[0] == AuthorizationPrefix + c.bearer
    ensures JsonContentType in r.headers <==> r.verb != "get"
    ensures r.verb == "get" ==> r.payload == data
    ensures r.verb != "get" ==> !r.payload.Params?
    ensures r.verb != "get" && data.Params? ==> r.payload == JsonOf(data.params)
  {
    var m := ToLower(verb);
    var auth := AuthorizationPrefix + c.bearer;
    assert auth[0] == 'A' && JsonContentType[0] == 'C';
    if m != "get" then
      Request(m, c.baseurl + path, [auth, JsonContentType], if data.Params? then JsonOf(data.params) else data)
    else
      Request(m, c.baseurl + path, [auth], data)
  }

  /** One entry of the `errors` list of an error body. */
  datatype ErrorEntry = ErrorEntry(code: string, additionalInfo: Option<string>)

  /** The decoded response body, as far as the client looks into it. */
  datatype Decoded =
    | NoJson                        // JSON null, or a body that does not decode
    | AssetList(assets: seq<Asset>)
    | JsonObject(hasError: bool, errors: Option<seq<ErrorEntry>>)

  /** What curl reports for one call. */
  datatype Reply = Reply(
    errno: int,
    curlError: string,
    status: int,
    body: string,
    decoded: Decoded,
    headers: Headers)

  datatype CallResult = CallResult(status: int, data: Decoded, headers: Headers)

  /** One call: what was sent and what came of it. */
  datatype Call = Call(request: Request, result: Result<CallResult>)

  const StatusPrefix: string := "HTTP Status: "

  /** The text appended for the entries of a parsed `errors` list. */
  function ErrorDetails(es: seq<ErrorEntry>): string
    decreases |es|
  {
    if |es| == 0 then ""
    else
      var e := es[0];
      " Code: " + e.code
      + (if e.additionalInfo.Some? then " Message: " + e.additionalInfo.value else "")
      + ErrorDetails(es[1..])
  }

  /**
    The detail of the exception for an HTTP status of 400 or more: the status,
    then for a body with content a full stop and the parsed parts. The parsed
    `error` is read from the raw response string, which has no properties, so
    only its frame " Parsed Error: ." is ever appended.
   */
  function ErrorMessage(status: int, body: string, decoded: Decoded): string {
    StatusPrefix + IntToString(status) + ErrorTail(body, decoded)
  }

  /** What follows the status in an error detail; nothing for an empty body. */
  function ErrorTail(body: string, decoded: Decoded): (t: string)
    ensures t == [] <==> EmptyStr(body)
    ensures t != [] ==> t[0] == '.'
    ensures !EmptyStr(body) && decoded.JsonObject? && decoded.errors.Some? ==>
      var d := ErrorDetails(decoded.errors.value);
      |d| <= |t| && t[|t| - |d|..] == d
  {
    if EmptyStr(body) then ""
    else
      "."
      + (if decoded.JsonObject? && decoded.hasError then " Parsed Error: ." else "")
      + (if decoded.JsonObject? && decoded.errors.Some? then " Parsed Errors." + ErrorDetails(decoded.errors.value) else "")
  }

  /** The details of a list of errors are the details of each entry, in order. */
  lemma {:induction false} ErrorDetailsAppend(es: seq<ErrorEntry>, more: seq<ErrorEntry>)
    ensures ErrorDetails(es + more) == ErrorDetails(es) + ErrorDetails(more)
    decreases |es|
  {
    if |es| == 0 {
      assert es + more == more;
    } else {
      var e := es[0];
      var head := " Code: " + e.code + (if e.additionalInfo.Some? then " Message: " + e.additionalInfo.value else "");
      assert (es + more)[0] == e;
      assert (es + more)[1..] == es[1..] + more;
      ErrorDetailsAppend(es[1..], more);
      ConcatAssoc(head, ErrorDetails(es[1..]), ErrorDetails(more));
    }
  }

  /** Reads the HTTP status back out of an error detail, as a reader of the log would. */
  function StatusOf(detail: string): Option<int> {
    if |detail| >= |StatusPrefix| && detail[..|StatusPrefix|] == StatusPrefix then
      Some(IntVal(detail[|StatusPrefix|..]))
    else None
  }

  /** The status an error message names is the status of the reply. */
  lemma ErrorMessageStatus(status: int, body: string, decoded: Decoded)
    ensures StatusOf(ErrorMessage(status, body, decoded)) == Some(status)
  {
    var rest := IntToString(status) + ErrorTail(body, decoded);
    var msg := StatusPrefix + rest;
    assert ErrorMessage(status, body, decoded) == msg;
    assert msg[..|StatusPrefix|] == StatusPrefix;
    assert msg[|StatusPrefix|..] == rest;
    IntValOfIntToString(status, ErrorTail(body, decoded));
  }

  /**
    `make_call`: a curl error number becomes a web-service error with curl's
    message; a status of 400 or more becomes a web-service error naming the
    status; anything else is returned with the decoded body and the headers.
   */
  function MakeCall(c: Client, path: string, data: Payload, verb: string, reply: Reply): (call: Call)
    ensures call.request == BuildRequest(c, path, data, verb)
    ensures reply.errno != 0 ==> call.result == Thrown(WebServiceError(reply.curlError))
    ensures reply.errno == 0 && reply.status >= 400 ==>
      && call.result.Thrown? && call.result.failure.WebServiceError?
      && call.result.failure.detail == ErrorMessage(reply.status, reply.body, reply.decoded)
      && StatusOf(call.result.failure.detail) == Some(reply.status)
      && var head := StatusPrefix + IntToString(reply.status);
         && (EmptyStr(reply.body) ==> call.result.failure.detail == head)
         && (!EmptyStr(reply.body) ==> head + "." <= call.result.failure.detail)
    ensures reply.errno == 0 && reply.status < 400 ==>
      call.result == Ok(CallResult(reply.status, reply.decoded, reply.headers))
  {
    var request := BuildRequest(c, path, data, verb);
    if reply.errno != 0 then
      Call(request, Thrown(WebServiceError(reply.curlError)))
    else if reply.status >= 400 then
      ErrorMessageStatus(reply.status, reply.body, reply.decoded);
      Call(request, Thrown(WebServiceError(ErrorMessage(reply.status, reply.body, reply.decoded))))
    else
      Call(request, Ok(CallResult(reply.status, reply.decoded, reply.headers)))
  }

  // ---------------------------------------------------------------------------
  // the catalog calls

  /** The cursor as the parameter array of a GET. */
  function CursorParams(cur: Cursor): (m: map<string, Value>)
    ensures m.Keys == {"offset", "max", "pagingRequestId", "updatedSince"}
    ensures m["offset"] == Int(cur.offset) && m["max"] == Int(cur.max)
    ensures m["pagingRequestId"] == OptValue(cur.pagingRequestId)
    ensures m["updatedSince"] == OptValue(cur.updatedSince)
  {
    map["offset" := Int(cur.offset), "max" := Int(cur.max),
        "pagingRequestId" := OptValue(cur.pagingRequestId),
        "updatedSince" := OptValue(cur.updatedSince)]
  }

  /** A parameter of a GET request; null when the request has no such parameter. */
  function Param(r: Request, key: string): Value {
    if r.payload.Params? && key in r.payload.params then r.payload.params[key] else Null
  }

  function CatalogPath(orgid: string): string {
    "/content-discovery/v2/organizations/" + orgid + "/catalog-content"
  }

  /** The request of `get_catalog_content` for the data a caller passes. */
  function CatalogRequest(c: Client, q: Query): (r: Request)
    ensures r.verb == "get"
    ensures r.url == c.baseurl + CatalogPath(c.orgid)
    ensures r.payload == Params(CursorParams(Defaults(q)))
  {
    BuildRequest(c, CatalogPath(c.orgid), Params(CursorParams(Defaults(q))), "get")
  }

  /**
    `get_catalog_content`: one GET of the organisation's catalog with the
    defaults applied; a body that decodes to null becomes the empty list.
   */
  function GetCatalogContent(c: Client, q: Query, reply: Reply): (call: Call)
    ensures call.request == CatalogRequest(c, q)
    ensures call.result.Thrown? <==> reply.errno != 0 || reply.status >= 400
    ensures call.result.Thrown? ==> call.result.failure.WebServiceError?
    ensures call.result.Ok? ==>
      && call.result.value.headers == reply.headers
      && call.result.value.data == (if reply.decoded.NoJson? then AssetList([]) else reply.decoded)
  {
    var call := MakeCall(c, CatalogPath(c.orgid), Params(CursorParams(Defaults(q))), "get", reply);
    match call.result
    case Thrown(_) => call
    case Ok(res) =>
      call.(result := Ok(res.(data := if res.data.NoJson? then AssetList([]) else res.data)))
  }

  /**
    `array_merge` of the assets so far with a page's data. Data that is not
    set is skipped; a decoded JSON object is not an array, which PHP rejects
    with a TypeError.
   */
  function MergePage(acc: seq<Asset>, data: Decoded): (r: Result<seq<Asset>>)
    ensures r.Ok? <==> !data.JsonObject?
    ensures r.Thrown? ==> !r.failure.IsException()
    ensures r.Ok? ==> r.value == acc + PageAssets(data)
  {
    match data
    case NoJson => Ok(acc)
    case AssetList(xs) => Ok(acc + xs)
    case JsonObject(_, _) => Thrown(EngineError("array_merge(): Argument #2 must be of type array"))
  }

  /** The assets a page contributes. */
  function PageAssets(data: Decoded): seq<Asset> {
    if data.AssetList? then data.assets else []
  }

  /** How a paging loop ended. */
  datatype Outcome =
    | Complete(assets: seq<Asset>)      // the announced total was reached
    | Failed(failure: Failure)           // a call or a merge threw
    | OutOfReplies(assets: seq<Asset>)   // the scripted server had nothing more to say

  datatype Run = Run(outcome: Outcome, requests: seq<Request>)

  /** Where the loop stands after one call: ended with an outcome, or going on. */
  datatype Fetched =
    | Ended(outcome: Outcome)
    | More(cursor: Cursor, assets: seq<Asset>)

  /**
    The body of the loop for one reply: call, merge the page into the assets
    so far, and go on from the advanced cursor while fewer assets have
    arrived than the page's `x-total-count` announces.
   */
  function FetchStep(c: Client, cur: Cursor, acc: seq<Asset>, reply: Reply): (f: Fetched)
    ensures f.Ended? && f.outcome.Failed? <==>
      reply.errno != 0 || reply.status >= 400 || reply.decoded.JsonObject?
    ensures f.Ended? && f.outcome.Failed? ==>
      (f.outcome.failure.IsException() <==> reply.errno != 0 || reply.status >= 400)
    ensures f.More? ==>
      && f.cursor == Advance(cur, reply.headers)
      && f.assets == acc + PageAssets(reply.decoded)
      && |f.assets| < TotalCount(reply.headers)
    ensures f.Ended? && !f.outcome.Failed? ==>
      && f.outcome == Complete(acc + PageAssets(reply.decoded))
      && |f.outcome.assets| >= TotalCount(reply.headers)
  {
    var call := GetCatalogContent(c, AsQuery(cur), reply);
    match call.result
    case Thrown(f) => Ended(Failed(f))
    case Ok(page) =>
      match MergePage(acc, page.data)
      case Thrown(f) => Ended(Failed(f))
      case Ok(all) =>
        if |all| < TotalCount(page.headers) then More(Advance(cur, page.headers), all)
        else Ended(Complete(all))
  }

  /**
    The reference definition of `get_all_catalog_content` from a given
    cursor and the assets gathered so far: one request per reply, until a
    step ends the run or the replies run out.
   */
  function CatalogFrom(c: Client, cur: Cursor, acc: seq<Asset>, replies: seq<Reply>): Run
    decreases |replies|
  {
    if |replies| == 0 then Run(OutOfReplies(acc), [])
    else
      var request := CatalogRequest(c, AsQuery(cur));
      match FetchStep(c, cur, acc, replies[0])
      case Ended(outcome) => Run(outcome, [request])
      case More(next, all) =>
        var rest := CatalogFrom(c, next, all, replies[1..]);
        Run(rest.outcome, [request] + rest.requests)
  }

  /** The headers of a run of replies. */
  function HeadersOf(replies: seq<Reply>): (hs: seq<Headers>)
    ensures |hs| == |replies|
    ensures forall k :: 0 <= k < |replies| ==> hs[k] == replies[k].headers
  {
    seq(|replies|, k requires 0 <= k < |replies| => replies[k].headers)
  }

  /** The assets of the pages of a run of replies, in order. */
  function AssetsOf(replies: seq<Reply>): seq<Asset>
    decreases |replies|
  {
    if |replies| == 0 then [] else PageAssets(replies[0].decoded) + AssetsOf(replies[1..])
  }

  /** The assets of the first n + 1 pages are those of the first page, then those of the next n. */
  lemma AssetsOfPrefix(replies: seq<Reply>, n: nat)
    requires n < |replies|
    ensures AssetsOf(replies[..n + 1]) == PageAssets(replies[0].decoded) + AssetsOf(replies[1..][..n])
  {
    assert replies[..n + 1][1..] == replies[1..][..n];
  }

  /** Every call is one reply, and at least one call is made when the server answers at all. */
  lemma {:induction false} CatalogRequestCount(c: Client, cur: Cursor, acc: seq<Asset>, replies: seq<Reply>)
    ensures |CatalogFrom(c, cur, acc, replies).requests| <= |replies|
    ensures |replies| > 0 ==> |CatalogFrom(c, cur, acc, replies).requests| >= 1
    decreases |replies|
  {
    if |replies| > 0 {
      var f := FetchStep(c, cur, acc, replies[0]);
      if f.More? {
        CatalogRequestCount(c, f.cursor, f.assets, replies[1..]);
      }
    }
  }

  /**
    The k-th request of a run carries the cursor advanced over the headers of
    the k pages before it.
   */
  lemma {:induction false} CatalogRequestAt(c: Client, cur: Cursor, acc: seq<Asset>, replies: seq<Reply>, k: nat)
    requires k < |CatalogFrom(c, cur, acc, replies).requests| && k < |replies|
    ensures CatalogFrom(c, cur, acc, replies).requests[k]
      == CatalogRequest(c, AsQuery(AdvanceAll(cur, HeadersOf(replies[..k]))))
    decreases k
  {
    if k == 0 {
      assert HeadersOf(replies[..0]) == [];
    } else {
      var f := FetchStep(c, cur, acc, replies[0]);
      var rest := CatalogFrom(c, f.cursor, f.assets, replies[1..]);
      assert CatalogFrom(c, cur, acc, replies).requests == [CatalogRequest(c, AsQuery(cur))] + rest.requests;
      CatalogRequestAt(c, f.cursor, f.assets, replies[1..], k - 1);
      HeadersOfPrefix(replies, k);
    }
  }

  /** The headers of the first k pages are those of the first page, then those of the next k - 1. */
  lemma HeadersOfPrefix(replies: seq<Reply>, k: nat)
    requires 1 <= k <= |replies|
    ensures HeadersOf(replies[..k]) == [replies[0].headers] + HeadersOf(replies[1..][..k - 1])
  {
    assert replies[..k][1..] == replies[1..][..k - 1];
  }

  /**
    What the loop gathers is exactly the pages it fetched, in order: when it
    ends without a failure, its assets are the assets so far followed by the
    assets of the pages of its requests.
   */
  lemma {:induction false} CatalogAssets(c: Client, cur: Cursor, acc: seq<Asset>, replies: seq<Reply>)
    ensures var run := CatalogFrom(c, cur, acc, replies);
      !run.outcome.Failed? ==>
        |run.requests| <= |replies| && run.outcome.assets == acc + AssetsOf(replies[..|run.requests|])
    decreases |replies|
  {
    CatalogRequestCount(c, cur, acc, replies);
    if |replies| == 0 {
      assert replies[..0] == [];
    } else {
      var f := FetchStep(c, cur, acc, replies[0]);
      var page := PageAssets(replies[0].decoded);
      if f.More? {
        var rest := CatalogFrom(c, f.cursor, f.assets, replies[1..]);
        CatalogAssets(c, f.cursor, f.assets, replies[1..]);
        var n := |rest.requests|;
        AssetsOfPrefix(replies, n);
        ConcatAssoc(acc, page, AssetsOf(replies[1..][..n]));
      } else {
        AssetsOfPrefix(replies, 0);
        assert AssetsOf(replies[1..][..0]) == [];
      }
    }
  }

  /** A complete run has received at least as many assets as its last page announced. */
  lemma {:induction false} CatalogCompleteReachesTotal(c: Client, cur: Cursor, acc: seq<Asset>, replies: seq<Reply>)
    ensures var run := CatalogFrom(c, cur, acc, replies);
      run.outcome.Complete? ==>
        && 1 <= |run.requests| <= |replies|
        && |run.outcome.assets| >= TotalCount(replies[|run.requests| - 1].headers)
    decreases |replies|
  {
    CatalogRequestCount(c, cur, acc, replies);
    if |replies| > 0 {
      var f := FetchStep(c, cur, acc, replies[0]);
      if f.More? {
        CatalogCompleteReachesTotal(c, f.cursor, f.assets, replies[1..]);
        var rest := CatalogFrom(c, f.cursor, f.assets, replies[1..]);
        if rest.outcome.Complete? {
          assert replies[1..][|rest.requests| - 1] == replies[|rest.requests|];
        }
      }
    }
  }

  /**
    The parameters of the k-th request: offset and page size step on from the
    defaults, and a paging id, once held or first handed out non-empty, is
    sent with every later request.
   */
  lemma CatalogParamsAt(c: Client, q: Query, replies: seq<Reply>, k: nat)
    requires k < |CatalogFrom(c, Defaults(q), [], replies).requests| && k < |replies|
    ensures var start := Defaults(q);
      var r := CatalogFrom(c, start, [], replies).requests[k];
      && Param(r, "offset") == Int(start.offset + k * start.max)
      && Param(r, "max") == Int(start.max)
      && Param(r, "updatedSince") == OptValue(start.updatedSince)
      && (start.pagingRequestId.Some? ==> Param(r, "pagingRequestId") == OptValue(start.pagingRequestId))
      && (start.pagingRequestId.None? && 1 <= k && !EmptyOpt(PagingHeader(replies[0].headers)) ==>
            Param(r, "pagingRequestId") == OptValue(PagingHeader(replies[0].headers)))
  {
    var start := Defaults(q);
    var hs := HeadersOf(replies[..k]);
    CatalogRequestAt(c, start, [], replies, k);
    var cur := AdvanceAll(start, hs);
    AdvanceAllOffset(start, hs);
    if start.pagingRequestId.Some? {
      AdvanceAllKeepsId(start, hs);
    }
    if start.pagingRequestId.None? && 1 <= k && !EmptyOpt(PagingHeader(replies[0].headers)) {
      LatchFirstId(start, hs);
    }
    assert Defaults(AsQuery(cur)).offset == cur.offset;
  }

  /** One call of the loop, unfolded: its request, then how the run ends or goes on. */
  lemma CatalogStep(c: Client, cur: Cursor, acc: seq<Asset>, replies: seq<Reply>)
    requires |replies| > 0
    ensures var f := FetchStep(c, cur, acc, replies[0]);
      var run := CatalogFrom(c, cur, acc, replies);
      var request := CatalogRequest(c, AsQuery(cur));
      && (f.Ended? ==> run == Run(f.outcome, [request]))
      && (f.More? ==>
            var rest := CatalogFrom(c, f.cursor, f.assets, replies[1..]);
            run == Run(rest.outcome, [request] + rest.requests))
  {
  }

  /** Moving one sent request from the rest of a run to the requests already sent. */
  lemma CatalogPrefix(whole: Run, sent: seq<Request>, request: Request, here: Run, rest: Run)
    requires whole == Run(here.outcome, sent + here.requests)
    requires here == Run(rest.outcome, [request] + rest.requests)
    ensures whole == Run(rest.outcome, (sent + [request]) + rest.requests)
  {
    assert sent + ([request] + rest.requests) == (sent + [request]) + rest.requests;
  }

  /**
    One pass of the loop body as the source writes it: the call, the merge,
    and the total-count test, computing exactly the step.
   */
  method FetchPage(c: Client, cur: Cursor, acc: seq<Asset>, reply: Reply) returns (request: Request, f: Fetched)
    ensures request == CatalogRequest(c, AsQuery(cur))
    ensures f == FetchStep(c, cur, acc, reply)
  {
    var call := GetCatalogContent(c, AsQuery(cur), reply);
    request := call.request;
    match call.result {
      case Thrown(e) =>
        f := Ended(Failed(e));
      case Ok(page) =>
        match MergePage(acc, page.data) {
          case Thrown(e) =>
            f := Ended(Failed(e));
          case Ok(all) =>
            if |all| < TotalCount(page.headers) {
              f := More(Advance(cur, page.headers), all);
            } else {
              f := Ended(Complete(all));
            }
        }
    }
  }

  /**
    `get_all_catalog_content`: the paging loop, written as the source writes
    it, computing exactly the reference run.
   */
  method GetAllCatalogContent(c: Client, q: Query, replies: seq<Reply>) returns (run: Run)
    ensures run == CatalogFrom(c, Defaults(q), [], replies)
    ensures |run.requests| <= |replies|
    ensures forall k :: 0 <= k < |run.requests| ==>
      run.requests[k] == CatalogRequest(c, AsQuery(AdvanceAll(Defaults(q), HeadersOf(replies[..k]))))
    ensures !run.outcome.Failed? ==> run.outcome.assets == AssetsOf(replies[..|run.requests|])
  {
    var cur := Defaults(q);
    ghost var whole := CatalogFrom(c, cur, [], replies);
    var acc: seq<Asset> := [];
    var requests: seq<Request> := [];
    var i := 0;
    var ended: Option<Outcome> := None;
    while ended.None? && i < |replies|
      invariant 0 <= i <= |replies|
      invariant ended.None? ==>
        var rest := CatalogFrom(c, cur, acc, replies[i..]);
        whole == Run(rest.outcome, requests + rest.requests)
      invariant ended.Some? ==> whole == Run(ended.value, requests)
      decreases |replies| - i
    {
      CatalogStep(c, cur, acc, replies[i..]);
      assert replies[i..][0] == replies[i] && replies[i..][1..] == replies[i + 1..];
      ghost var here := CatalogFrom(c, cur, acc, replies[i..]);
      ghost var sent := requests;
      var request, f := FetchPage(c, cur, acc, replies[i]);
      requests := requests + [request];
      match f {
        case Ended(outcome) =>
          ended := Some(outcome);
        case More(next, all) =>
          ghost var rest := CatalogFrom(c, next, all, replies[i + 1..]);
          CatalogPrefix(whole, sent, request, here, rest);
          assert whole == Run(rest.outcome, requests + rest.requests);
          cur, acc := next, all;
      }
      i := i + 1;
    }
    if ended.None? {
      assert replies[i..] == [];
    }
    run := Run(if ended.Some? then ended.value else OutOfReplies(acc), requests);
    CatalogRun(c, Defaults(q), replies);
  }

  /** What a whole run from a start cursor sends and gathers, page by page. */
  lemma CatalogRun(c: Client, start: Cursor, replies: seq<Reply>)
    ensures var run := CatalogFrom(c, start, [], replies);
      && |run.requests| <= |replies|
      && (forall k :: 0 <= k < |run.requests| ==>
            run.requests[k] == CatalogRequest(c, AsQuery(AdvanceAll(start, HeadersOf(replies[..k])))))
      && (!run.outcome.Failed? ==> run.outcome.assets == AssetsOf(replies[..|run.requests|]))
  {
    var run := CatalogFrom(c, start, [], replies);
    CatalogRequestCount(c, start, [], replies);
    forall k | 0 <= k < |run.requests|
      ensures run.requests[k] == CatalogRequest(c, AsQuery(AdvanceAll(start, HeadersOf(replies[..k]))))
    {
      CatalogRequestAt(c, start, [], replies, k);
    }
    CatalogAssets(c, start, [], replies);
  }
}

=== FILE: categories.dfy ===
/**
  Category resolution: the configured parent category (an id, an id-number or
  nothing) and the per-asset leaf category that is looked up by id-number and
  created under the parent when missing.
 */
module Categories {
  import opened Php
  import opened Store

  /** The parent category setting, as `resolve_category_by_id_or_idnumber` tells its cases apart. */
  datatype CategoryRef =
    | NullRef                       // null: the site's default category
    | NumericRef(id: int)           // an is_numeric value: a category id to confirm
    | IdNumberRef(idnumber: string) // anything else: a category id-number

  /** `empty($config->category)`. */
  predicate EmptyRef(r: CategoryRef) {
    match r
    case NullRef => true
    case NumericRef(id) => id == 0
    case IdNumberRef(x) => EmptyStr(x)
  }

  /**
    `resolve_category_by_id_or_idnumber`: null gives the default category, a
    number gives itself when such a category exists and null otherwise, and an
    id-number gives the id of its category or throws when there is none (the
    read is MUST_EXIST).
   */
  function ResolveParent(s: Store, ref: CategoryRef): (r: Result<Option<nat>>)
    ensures ref.NullRef? ==> r == Ok(Some(s.defaultCategory))
    ensures ref.NumericRef? ==> r.Ok?
    ensures ref.NumericRef? ==>
      (r.value.Some? <==> exists i :: 0 <= i < |s.categories| && s.categories[i].id == ref.id)
    ensures ref.NumericRef? && r.value.Some? ==> r.value.value == ref.id
    ensures ref.IdNumberRef? ==>
      (r.Thrown? <==> forall i :: 0 <= i < |s.categories| ==> s.categories[i].idnumber != ref.idnumber)
    ensures ref.IdNumberRef? && r.Ok? ==>
      (&& r.value.Some?
       && exists i :: 0 <= i < |s.categories| && s.categories[i].idnumber == ref.idnumber
                      && s.categories[i].id == r.value.value)
  {
    match ref
    case NullRef => Ok(Some(s.defaultCategory))
    case NumericRef(id) =>
      if id >= 0 && CategoryExists(s, id) then Ok(Some(id)) else Ok(None)
    case IdNumberRef(x) =>
      match CategoryIdByIdnumber(s, x)
      case None => Thrown(MissingRecord("course_categories"))
      case Some(id) => Ok(Some(id))
  }

  /** A resolved parent as the category value a course carries. */
  function ParentField(parent: Option<nat>): CategoryField {
    match parent
    case None => NoCategory
    case Some(id) => CategoryId(id)
  }

  /**
    `get_or_create_category_from_import_record`: an empty derived id-number
    gives the parent; otherwise the category with that id-number, created under
    the parent when missing and a name was derived; a missing id-number without
    a name gives the lookup's `false`. At most one category is added and
    nothing else in the store changes.
   */
  function GetOrCreateCategory(s: Store, parent: Option<nat>, idnumber: string, name: string)
    : (r: (CategoryField, Store))
    ensures EmptyStr(idnumber) ==> r == (ParentField(parent), s)
    ensures !EmptyStr(idnumber) && CategoryIdByIdnumber(s, idnumber).Some? ==>
      r == (CategoryId(CategoryIdByIdnumber(s, idnumber).value), s)
    ensures !EmptyStr(idnumber) && CategoryIdByIdnumber(s, idnumber).None? && EmptyStr(name) ==>
      r == (LookupFalse, s)
    ensures !EmptyStr(idnumber) && CategoryIdByIdnumber(s, idnumber).None? && !EmptyStr(name) ==>
      && r.1 == s.(categories := s.categories + [Category(|s.categories| + 1, parent, name, idnumber)])
      && r.0 == CategoryId(|s.categories| + 1)
    ensures !EmptyStr(idnumber) && r.0.CategoryId? ==> CategoryIdByIdnumber(r.1, idnumber) == Some(r.0.id)
  {
    if EmptyStr(idnumber) then (ParentField(parent), s)
    else
      match CategoryIdByIdnumber(s, idnumber)
      case Some(id) => (CategoryId(id), s)
      case None =>
        if EmptyStr(name) then (LookupFalse, s)
        else
          var (id, s') := CreateCategory(s, parent, name, idnumber);
          assert s'.categories[|s.categories|].idnumber == idnumber;
          (CategoryId(id), s')
  }

  /**
    A second get-or-create with the same inputs, on any store whose categories
    are those the first one left, finds what the first returned and writes
    nothing.
   */
  lemma GetOrCreateCategoryIdempotent(s: Store, parent: Option<nat>, idnumber: string, name: string, t: Store)
    requires t.categories == GetOrCreateCategory(s, parent, idnumber, name).1.categories
    ensures GetOrCreateCategory(t, parent, idnumber, name) == (GetOrCreateCategory(s, parent, idnumber, name).0, t)
  {
    var (c, s') := GetOrCreateCategory(s, parent, idnumber, name);
    if !EmptyStr(idnumber) && CategoryIdByIdnumber(s, idnumber).None? && !EmptyStr(name) {
      assert CategoryIdByIdnumber(t, idnumber) == CategoryIdByIdnumber(s', idnumber) == Some(c.id);
    } else {
      assert CategoryIdByIdnumber(t, idnumber) == CategoryIdByIdnumber(s, idnumber);
    }
  }

  /** Parent resolution reads only the category table and the default category. */
  lemma ResolveParentFrame(s: Store, t: Store, ref: CategoryRef)
    requires t.categories == s.categories && t.defaultCategory == s.defaultCategory
    ensures ResolveParent(t, ref) == ResolveParent(s, ref)
  {
  }

  /** Adding categories never changes what an id-number already resolved to. */
  lemma CategoryLookupStable(s: Store, extra: seq<Category>, idnumber: string)
    requires CategoryIdByIdnumber(s, idnumber).Some?
    ensures CategoryIdByIdnumber(s.(categories := s.categories + extra), idnumber)
            == CategoryIdByIdnumber(s, idnumber)
  {
    var t := s.(categories := s.categories + extra);
    var p := (c: Category) => c.idnumber == idnumber;
    var i := FirstIndex(s.categories, p).value;
    var j := FirstIndex(t.categories, p);
    assert t.categories[i] == s.categories[i];
    if j.None? || j.value != i {
      assert false;
    }
  }

  /** A parent that resolved keeps resolving, to an existing category, once categories are added. */
  lemma ResolveParentStable(s: Store, extra: seq<Category>, ref: CategoryRef)
    requires ResolveParent(s, ref).Ok?
    ensures ResolveParent(s.(categories := s.categories + extra), ref).Ok?
    ensures ResolveParent(s, ref).value.Some? ==>
      ResolveParent(s.(categories := s.categories + extra), ref) == ResolveParent(s, ref)
  {
    var t := s.(categories := s.categories + extra);
    match ref
    case NullRef =>
    case NumericRef(id) =>
      if ResolveParent(s, ref).value.Some? {
        var i :| 0 <= i < |s.categories| && s.categories[i].id == id;
        assert t.categories[i] == s.categories[i];
      }
    case IdNumberRef(x) =>
      CategoryLookupStable(s, extra, x);
  }
}

=== FILE: convergence.dfy ===
/**
  What an import leaves behind on a well-formed store, and why a second import
  of the same asset changes nothing: the course and its activity are found by
  the id-number the first import wrote, and both merges come back empty.
 */
module Convergence {
  import opened Php
  import opened Store
  import opened Categories
  import opened Mapper
  import opened Reconciler
  import StringSort

  /** A valid store holds no module row that the id-number lookup would find and then drop. */
  lemma ActivityAbsentMeansNoModule(s: Store, idnumber: string, course: nat)
    requires Valid(s)
    requires ActivityByIdnumber(s, idnumber, course).None?
    ensures forall i :: 0 <= i < |s.cms| ==> !(s.cms[i].idnumber == idnumber && s.cms[i].course == course)
  {
    forall i | 0 <= i < |s.cms|
      ensures !(s.cms[i].idnumber == idnumber && s.cms[i].course == course)
    {
      if s.cms[i].idnumber == idnumber && s.cms[i].course == course {
        assert false;
      }
    }
  }

  /**
    Creating an activity and linking its module: the module is found, so
    nothing throws; the store stays valid; the activity and its module (now
    carrying the id-number) are appended and the criterion is recorded.
   */
  lemma CreateAndLink(s: Store, activity: Activity, course: nat, idnumber: string)
    requires Valid(s) && 1 <= course <= |s.courses|
    ensures var (act, cm, s1) := CreateActivity(s, activity, course);
      && LinkModule(s1, act.id, idnumber, course).Ok?
      && var t := LinkModule(s1, act.id, idnumber, course).value;
      && Valid(t)
      && t.courses == s.courses && t.categories == s.categories && t.defaultCategory == s.defaultCategory
      && t.activities == s.activities + [act]
      && t.cms == s.cms + [cm.(idnumber := idnumber)]
      && (course, cm.id) in t.criteria
  {
    var (act, cm, s1) := CreateActivity(s, activity, course);
    CreateActivityValid(s, activity, course);
    CmByInstanceAt(s1, |s.cms|);
    var linked := cm.(idnumber := idnumber);
    UpdateCmAt(s1, linked);
    UpdateCmValid(s1, cm, idnumber);
    var s2 := UpdateCm(s1, linked);
    assert s2.cms == s.cms + [linked] by {
      assert s1.cms[|s.cms| := linked] == s.cms + [linked];
    }
    assert LinkModule(s1, act.id, idnumber, course) == Ok(UpdateCompletionCriteria(s2, course, cm.id));
    var t := UpdateCompletionCriteria(s2, course, cm.id);
    assert t.categories == s2.categories && t.courses == s2.courses && t.activities == s2.activities
      && t.cms == s2.cms && t.defaultCategory == s2.defaultCategory;
    SameTablesValid(s2, t);
  }

  /**
    After a create-and-link in a course that had no activity with the
    id-number, the lookup finds the created activity, and merging the same
    import into it changes nothing.
   */
  lemma CreatedActivityFound(s: Store, activity: Activity, course: nat, idnumber: string)
    requires Valid(s) && 1 <= course <= |s.courses|
    requires ActivityByIdnumber(s, idnumber, course).None?
    requires activity.completionExternally == 0 || activity.completionExternally == 1
    ensures var (act, cm, s1) := CreateActivity(s, activity, course);
      && LinkModule(s1, act.id, idnumber, course).Ok?
      && ActivityByIdnumber(LinkModule(s1, act.id, idnumber, course).value, idnumber, course) == Some(act)
      && MergeActivity(act, activity).None?
  {
    var (act, cm, s1) := CreateActivity(s, activity, course);
    CreateAndLink(s, activity, course, idnumber);
    var t := LinkModule(s1, act.id, idnumber, course).value;
    ActivityAbsentMeansNoModule(s, idnumber, course);
    assert t.cms[|s.cms|] == cm.(idnumber := idnumber);
    assert forall j :: 0 <= j < |s.cms| ==> t.cms[j] == s.cms[j];
    ActivityByIdnumberAt(t, idnumber, course, |s.cms|);
    assert t.activities[|s.activities|] == act;
  }

  /**
    On a valid store an activity found by id-number sits at its id, belongs to
    the course, and the first module matching the lookup points at it.
   */
  lemma FoundActivity(s: Store, idnumber: string, course: nat, a: Activity) returns (i: nat)
    requires Valid(s)
    requires ActivityByIdnumber(s, idnumber, course) == Some(a)
    ensures i < |s.cms| && s.cms[i].idnumber == idnumber && s.cms[i].course == course
    ensures forall j :: 0 <= j < i ==> !(s.cms[j].idnumber == idnumber && s.cms[j].course == course)
    ensures s.cms[i].instance == a.id && a.course == course
    ensures 1 <= a.id <= |s.activities| && s.activities[a.id - 1] == a
  {
    i :| 0 <= i < |s.cms| && s.cms[i].idnumber == idnumber && s.cms[i].course == course
         && (forall j :: 0 <= j < i ==> !(s.cms[j].idnumber == idnumber && s.cms[j].course == course))
         && s.cms[i].instance == a.id && a.course == course && a in s.activities;
  }

  /** Overwriting the found activity in place keeps the lookup pointing at the new row. */
  lemma FoundAfterActivityUpdate(s: Store, t: Store, idnumber: string, course: nat, a: Activity, m: Activity)
    requires Valid(s) && Valid(t)
    requires ActivityByIdnumber(s, idnumber, course) == Some(a)
    requires m.id == a.id && m.course == a.course
    requires t.cms == s.cms && t.activities == s.activities[a.id - 1 := m]
    ensures ActivityByIdnumber(t, idnumber, course) == Some(m)
  {
    var i := FoundActivity(s, idnumber, course, a);
    assert t.activities[a.id - 1] == m;
  }

  /**
    The activity step on a valid store: it does not throw, keeps the store
    valid and touches no course or category, and running it again with the
    same inputs reports the same activity as not updated and writes nothing.
   */
  lemma SyncActivityIdempotent(s: Store, course: Course, merged: Course, activity: Activity)
    requires Valid(s) && 1 <= merged.id <= |s.courses|
    requires course.idnumber == merged.idnumber
    requires activity.completionExternally == 0 || activity.completionExternally == 1
    ensures SyncActivity(s, course, merged, activity).Ok?
    ensures var (_, id, t) := SyncActivity(s, course, merged, activity).value;
      && Valid(t)
      && t.courses == s.courses && t.categories == s.categories && t.defaultCategory == s.defaultCategory
      && SyncActivity(t, course, merged, activity) == Ok((ActivityNotUpdated, id, t))
  {
    match ActivityByIdnumber(s, merged.idnumber, merged.id)
    case None =>
      SyncCreatedIdempotent(s, course, merged, activity);
    case Some(existing) =>
      match MergeActivity(existing, activity)
      case None =>
      case Some(m) =>
        SyncUpdatedIdempotent(s, course, merged, activity, existing, m);
  }

  /** The create branch of the activity step, on its own. */
  lemma SyncCreatedIdempotent(s: Store, course: Course, merged: Course, activity: Activity)
    requires Valid(s) && 1 <= merged.id <= |s.courses|
    requires ActivityByIdnumber(s, merged.idnumber, merged.id).None?
    requires activity.completionExternally == 0 || activity.completionExternally == 1
    ensures SyncActivity(s, course, merged, activity).Ok?
    ensures var (_, id, t) := SyncActivity(s, course, merged, activity).value;
      && Valid(t)
      && t.courses == s.courses && t.categories == s.categories && t.defaultCategory == s.defaultCategory
      && SyncActivity(t, course, merged, activity) == Ok((ActivityNotUpdated, id, t))
  {
    var (act, cm, s1) := CreateActivity(s, activity, merged.id);
    CreateAndLink(s, activity, merged.id, merged.idnumber);
    CreatedActivityFound(s, activity, merged.id, merged.idnumber);
    var t := LinkModule(s1, act.id, merged.idnumber, merged.id).value;
    assert SyncActivity(s, course, merged, activity) == Ok((ActivityCreated, act.id, t));
  }

  /** The update branch of the activity step, on its own. */
  lemma SyncUpdatedIdempotent(s: Store, course: Course, merged: Course, activity: Activity,
                              existing: Activity, m: Activity)
    requires Valid(s) && 1 <= merged.id <= |s.courses|
    requires course.idnumber == merged.idnumber
    requires ActivityByIdnumber(s, merged.idnumber, merged.id) == Some(existing)
    requires MergeActivity(existing, activity) == Some(m)
    ensures SyncActivity(s, course, merged, activity).Ok?
    ensures var (_, id, t) := SyncActivity(s, course, merged, activity).value;
      && Valid(t)
      && t.courses == s.courses && t.categories == s.categories && t.defaultCategory == s.defaultCategory
      && SyncActivity(t, course, merged, activity) == Ok((ActivityNotUpdated, id, t))
  {
    var t := UpdateAndLink(s, course, merged, activity, existing, m);
    FoundAfterActivityUpdate(s, t, merged.idnumber, merged.id, existing, m);
    MergeActivityIdempotent(existing, activity);
  }

  /**
    The first run of the update branch: the activity row is overwritten in
    place and, since the module already carries the id-number, only the
    completion records can change besides it.
   */
  lemma UpdateAndLink(s: Store, course: Course, merged: Course, activity: Activity,
                      existing: Activity, m: Activity) returns (t: Store)
    requires Valid(s) && 1 <= merged.id <= |s.courses|
    requires course.idnumber == merged.idnumber
    requires ActivityByIdnumber(s, merged.idnumber, merged.id) == Some(existing)
    requires MergeActivity(existing, activity) == Some(m)
    ensures SyncActivity(s, course, merged, activity) == Ok((ActivityUpdated, m.id, t))
    ensures Valid(t) && t.cms == s.cms && t.activities == s.activities[existing.id - 1 := m]
    ensures t.courses == s.courses && t.categories == s.categories && t.defaultCategory == s.defaultCategory
  {
    var i := FoundActivity(s, merged.idnumber, merged.id, existing);
    UpdateActivityAt(s, m);
    UpdateActivityValid(s, m);
    var s2 := UpdateActivity(s, m);
    assert s2 == s.(activities := s.activities[existing.id - 1 := m]);
    var cm := s2.cms[i];
    assert CmByInstance(s2, m.id) == Some(cm) by {
      CmByInstanceAt(s2, i);
    }
    assert UpdateCm(s2, cm.(idnumber := course.idnumber)) == s2 by {
      assert cm.(idnumber := course.idnumber) == cm;
      UpdateCmAt(s2, cm);
      assert s2.cms[i := cm] == s2.cms;
    }
    t := UpdateCompletionCriteria(s2, merged.id, cm.id);
    assert LinkModule(s2, m.id, course.idnumber, merged.id) == Ok(t);
    assert t.categories == s2.categories && t.courses == s2.courses && t.activities == s2.activities
      && t.cms == s2.cms && t.defaultCategory == s2.defaultCategory;
    SameTablesValid(s2, t);
  }

  // ---------------------------------------------------------------------------
  // courses

  /** On a valid store a course found by id-number sits at its id and is the first with that id-number. */
  lemma FoundCourse(s: Store, idnumber: string, e: Course)
    requires Valid(s)
    requires CourseByIdnumber(s, idnumber) == Some(e)
    ensures 1 <= e.id <= |s.courses| && s.courses[e.id - 1] == e && e.idnumber == idnumber
    ensures forall j :: 0 <= j < e.id - 1 ==> s.courses[j].idnumber != idnumber
  {
  }

  /** Overwriting the found course with one keeping its id and id-number keeps the lookup on it. */
  lemma FoundAfterCourseUpdate(s: Store, idnumber: string, e: Course, c: Course)
    requires Valid(s)
    requires CourseByIdnumber(s, idnumber) == Some(e)
    requires c.id == e.id && c.idnumber == idnumber
    ensures Valid(UpdateCourse(s, c))
    ensures CourseByIdnumber(UpdateCourse(s, c), idnumber) == Some(c)
  {
    FoundCourse(s, idnumber, e);
    UpdateCourseAt(s, c);
    UpdateCourseValid(s, c);
    assert UpdateCourse(s, c).courses[c.id - 1] == c;
  }

  /** A created course is what its id-number finds when no course had it before. */
  lemma FoundAfterCourseCreate(s: Store, c: Course)
    requires Valid(s)
    requires CourseByIdnumber(s, c.idnumber).None?
    ensures Valid(CreateCourse(s, c).1)
    ensures CourseByIdnumber(CreateCourse(s, c).1, c.idnumber) == Some(CreateCourse(s, c).0)
    ensures ActivityByIdnumber(CreateCourse(s, c).1, c.idnumber, CreateCourse(s, c).0.id).None?
  {
    CreateCourseValid(s, c);
    var t := CreateCourse(s, c).1;
    assert t.courses[|s.courses|] == CreateCourse(s, c).0;
    assert forall i :: 0 <= i < |t.cms| ==> t.cms[i].course <= |s.courses|;
  }

  /** The second import repeats the first: same ids, nothing updated, nothing written. */
  predicate Repeats(first: Imported, second: Result<Imported>) {
    && second.Ok?
    && second.value.store == first.store
    && second.value.result.courseStatus == Some(CourseNotUpdated)
    && second.value.result.activityStatus == Some(ActivityNotUpdated)
    && second.value.result.courseId == first.result.courseId
    && second.value.result.activityId == first.result.activityId
  }

  /**
    The create path: the course and its activity are created, the course is
    then what its id-number finds, and importing it again (whatever record
    text comes with it) reports nothing to update.
   */
  lemma NewCourseIdempotent(s: Store, r: ImportRecord, r2: ImportRecord, course: Course, activity: Activity,
                            thumbnail: bool, env: Env)
    requires Valid(s) && CourseByIdnumber(s, course.idnumber).None?
    requires activity.completionExternally == 0 || activity.completionExternally == 1
    ensures ImportNewCourse(s, r, course, activity, thumbnail, env).Ok?
    ensures var first := ImportNewCourse(s, r, course, activity, thumbnail, env).value;
      var created := CreateCourse(s, course).0;
      && Valid(first.store)
      && first.store.categories == s.categories && first.store.defaultCategory == s.defaultCategory
      && CourseByIdnumber(first.store, course.idnumber) == Some(created)
      && Repeats(first, ImportExistingCourse(first.store, r2, course, created, activity, thumbnail, env))
  {
    var (created, s1) := CreateCourse(s, course);
    FoundAfterCourseCreate(s, course);
    var merged := MergedCourse(created, course, env.formatText);
    assert MergeCourse(created, course, env.formatText).None?;
    SyncCreatedIdempotent(s1, course, merged, activity);
    var (act, _, s2) := CreateActivity(s1, activity, created.id);
    var t := LinkModule(s2, act.id, course.idnumber, created.id).value;
    assert SyncActivity(s1, course, merged, activity) == Ok((ActivityCreated, act.id, t));
  }

  /**
    What the create path writes: the course is appended, then one activity in
    it, whose module carries the course's id-number and gets the activity
    completion criterion; the import reports both as created.
   */
  lemma NewCourseCreates(s: Store, r: ImportRecord, course: Course, activity: Activity, thumbnail: bool, env: Env)
    requires Valid(s)
    ensures ImportNewCourse(s, r, course, activity, thumbnail, env).Ok?
    ensures var created := CreateCourse(s, course).0;
      var first := ImportNewCourse(s, r, course, activity, thumbnail, env).value;
      && first.store.courses == s.courses + [created]
      && |first.store.activities| == |s.activities| + 1
      && |first.store.cms| == |s.cms| + 1
      && var act := first.store.activities[|s.activities|];
         var cm := first.store.cms[|s.cms|];
      && act.course == created.id && act.name == activity.name
      && cm.instance == act.id && cm.course == created.id && cm.idnumber == course.idnumber
      && (created.id, cm.id) in first.store.criteria
      && first.result.courseStatus == Some(CourseCreated(created.visible))
      && first.result.activityStatus == Some(ActivityCreated)
      && first.result.courseId == Some(created.id) && first.result.activityId == Some(act.id)
  {
    var (created, s1) := CreateCourse(s, course);
    CreateCourseValid(s, course);
    CreateAndLink(s1, activity, created.id, course.idnumber);
  }

  /**
    The merge path: the course is merged and its activity synced; the course
    stays what its id-number finds, and importing it again reports nothing to
    update.
   */
  lemma ExistingCourseIdempotent(s: Store, r: ImportRecord, r2: ImportRecord, course: Course, existing: Course,
                                 activity: Activity, thumbnail: bool, env: Env)
    requires Valid(s) && CourseByIdnumber(s, course.idnumber) == Some(existing)
    requires activity.completionExternally == 0 || activity.completionExternally == 1
    ensures ImportExistingCourse(s, r, course, existing, activity, thumbnail, env).Ok?
    ensures var first := ImportExistingCourse(s, r, course, existing, activity, thumbnail, env).value;
      && Valid(first.store)
      && first.store.categories == s.categories && first.store.defaultCategory == s.defaultCategory
      && CourseByIdnumber(first.store, course.idnumber).Some?
      && Repeats(first, ImportExistingCourse(first.store, r2, course,
                                             CourseByIdnumber(first.store, course.idnumber).value,
                                             activity, thumbnail, env))
  {
    var merge := MergeCourse(existing, course, env.formatText);
    var merged := MergedCourse(existing, course, env.formatText);
    var s1 := if merge.Some? then UpdateCourse(s, merged) else s;
    var again := CourseWritten(s, course, existing, env);
    SyncActivityIdempotent(s1, course, merged, activity);
    var (_, id, t) := SyncActivity(s1, course, merged, activity).value;
    ExistingCourseFirst(s, r, course, existing, activity, thumbnail, env);
    assert CourseByIdnumber(t, course.idnumber) == Some(again);
    ExistingCourseUnchanged(t, r2, course, again, activity, thumbnail, env, id);
  }

  /**
    The course write of the first import: the course found afterwards is the
    merged one, and merging the same import into it changes nothing.
   */
  lemma CourseWritten(s: Store, course: Course, existing: Course, env: Env) returns (again: Course)
    requires Valid(s) && CourseByIdnumber(s, course.idnumber) == Some(existing)
    ensures var merge := MergeCourse(existing, course, env.formatText);
      var merged := MergedCourse(existing, course, env.formatText);
      var s1 := if merge.Some? then UpdateCourse(s, merged) else s;
      && Valid(s1) && s1.categories == s.categories && s1.defaultCategory == s.defaultCategory
      && 1 <= merged.id <= |s1.courses| && course.idnumber == merged.idnumber
      && CourseByIdnumber(s1, course.idnumber) == Some(again)
      && again.id == existing.id
      && MergeCourse(again, course, env.formatText).None?
      && MergedCourse(again, course, env.formatText) == merged
  {
    FoundCourse(s, course.idnumber, existing);
    var merge := MergeCourse(existing, course, env.formatText);
    var merged := MergedCourse(existing, course, env.formatText);
    if merge.Some? {
      FoundAfterCourseUpdate(s, course.idnumber, existing, merged);
      again := merged;
      MergeCourseIdempotent(existing, course, env.formatText);
      StringSort.SortIdempotent(course.tags);
    } else {
      again := existing;
    }
  }

  /** The first import of an existing course is its activity sync on the store after the course write. */
  lemma ExistingCourseFirst(s: Store, r: ImportRecord, course: Course, existing: Course,
                            activity: Activity, thumbnail: bool, env: Env)
    ensures var merge := MergeCourse(existing, course, env.formatText);
      var merged := MergedCourse(existing, course, env.formatText);
      var s1 := if merge.Some? then UpdateCourse(s, merged) else s;
      var sync := SyncActivity(s1, course, merged, activity);
      var first := ImportExistingCourse(s, r, course, existing, activity, thumbnail, env);
      sync.Ok? ==>
        && first.Ok? && first.value.store == sync.value.2
        && first.value.result.courseId == Some(existing.id)
        && first.value.result.activityId == Some(sync.value.1)
  {
  }

  /** An import that finds nothing to merge and an activity sync that writes nothing repeats. */
  lemma ExistingCourseUnchanged(t: Store, r: ImportRecord, course: Course, existing: Course,
                                activity: Activity, thumbnail: bool, env: Env, id: nat)
    requires MergeCourse(existing, course, env.formatText).None?
    requires SyncActivity(t, course, MergedCourse(existing, course, env.formatText), activity)
      == Ok((ActivityNotUpdated, id, t))
    ensures var again := ImportExistingCourse(t, r, course, existing, activity, thumbnail, env);
      && again.Ok? && again.value.store == t
      && again.value.result.courseStatus == Some(CourseNotUpdated)
      && again.value.result.activityStatus == Some(ActivityNotUpdated)
      && again.value.result.courseId == Some(existing.id)
      && again.value.result.activityId == Some(id)
  {
  }

  // ---------------------------------------------------------------------------
  // whole imports

  /**
    The course a record describes, built again on a store holding the
    categories the first build left: the same course, and no category write.
    The parent may differ when the record names its own category.
   */
  lemma CourseFromImportedAgain(s: Store, r: ImportRecord, q: Option<nat>, now: int, t: Store)
    requires t.categories == CourseFromImported(s, r, now).1.categories
    requires EmptyStr(r.courseCategoryIdnumber) ==> q == r.category
    ensures CourseFromImported(t, r.(category := q), now) == (CourseFromImported(s, r, now).0, t)
  {
    var idn := r.courseCategoryIdnumber;
    var name := r.courseCategoryName;
    GetOrCreateCategoryIdempotent(s, r.category, idn, name, t);
    assert GetOrCreateCategory(t, q, idn, name) == GetOrCreateCategory(t, r.category, idn, name);
  }

  /** A valid record whose course exists goes down the merge path. */
  lemma ApplyRecordExisting(t: Store, r: ImportRecord, course: Course, thumbnail: bool, env: Env)
    requires ValidRecord(r)
    requires CourseFromImported(t, r, env.now) == (course, t)
    requires CourseByIdnumber(t, course.idnumber).Some?
    ensures ApplyRecord(t, r, thumbnail, env)
            == ImportExistingCourse(t, r, course, CourseByIdnumber(t, course.idnumber).value,
                                    ActivityFromImported(r), thumbnail, env)
  {
  }

  /**
    Importing a valid record on a valid store never throws and keeps the store
    valid; importing it again on the result, with any parent category when the
    record names its own category and the same parent otherwise, finds the
    course and activity the first import wrote and changes nothing.
   */
  lemma ApplyRecordIdempotent(s: Store, r: ImportRecord, q: Option<nat>, thumbnail: bool, env: Env)
    requires Valid(s) && ValidRecord(r)
    requires r.externalMarkCompleteExternally == 0 || r.externalMarkCompleteExternally == 1
    requires EmptyStr(r.courseCategoryIdnumber) ==> q == r.category
    ensures ApplyRecord(s, r, thumbnail, env).Ok?
    ensures var first := ApplyRecord(s, r, thumbnail, env).value;
      && Valid(first.store)
      && first.store.defaultCategory == s.defaultCategory
      && s.categories <= first.store.categories
      && (EmptyStr(r.courseCategoryIdnumber) ==> first.store.categories == s.categories)
      && Repeats(first, ApplyRecord(first.store, r.(category := q), thumbnail, env))
  {
    var (course, s1) := CourseFromImported(s, r, env.now);
    var activity := ActivityFromImported(r);
    var first := FirstImport(s, r, thumbnail, env);
    SecondImport(s, r, q, first, thumbnail, env);
  }

  /** Building the course of a record keeps a valid store valid: at most a category is appended. */
  lemma CourseFromImportedValid(s: Store, r: ImportRecord, now: int)
    requires Valid(s)
    ensures Valid(CourseFromImported(s, r, now).1)
  {
  }

  /** The first import of a valid record: what it returns and leaves behind. */
  lemma FirstImport(s: Store, r: ImportRecord, thumbnail: bool, env: Env) returns (first: Imported)
    requires Valid(s) && ValidRecord(r)
    requires r.externalMarkCompleteExternally == 0 || r.externalMarkCompleteExternally == 1
    ensures ApplyRecord(s, r, thumbnail, env) == Ok(first)
    ensures var (course, s1) := CourseFromImported(s, r, env.now);
      && Valid(first.store)
      && first.store.categories == s1.categories && first.store.defaultCategory == s.defaultCategory
      && CourseByIdnumber(first.store, course.idnumber).Some?
      && forall r2: ImportRecord :: ActivityFromImported(r2) == ActivityFromImported(r) ==>
           Repeats(first, ImportExistingCourse(first.store, r2, course,
                                               CourseByIdnumber(first.store, course.idnumber).value,
                                               ActivityFromImported(r), thumbnail, env))
  {
    var (course, s1) := CourseFromImported(s, r, env.now);
    var activity := ActivityFromImported(r);
    CourseFromImportedValid(s, r, env.now);
    match CourseByIdnumber(s1, course.idnumber)
    case None =>
      NewCourseIdempotent(s1, r, r, course, activity, thumbnail, env);
      first := ImportNewCourse(s1, r, course, activity, thumbnail, env).value;
      forall r2: ImportRecord | ActivityFromImported(r2) == activity
        ensures Repeats(first, ImportExistingCourse(first.store, r2, course,
                                                    CourseByIdnumber(first.store, course.idnumber).value,
                                                    activity, thumbnail, env))
      {
        NewCourseIdempotent(s1, r, r2, course, activity, thumbnail, env);
      }
    case Some(existing) =>
      ExistingCourseIdempotent(s1, r, r, course, existing, activity, thumbnail, env);
      first := ImportExistingCourse(s1, r, course, existing, activity, thumbnail, env).value;
      forall r2: ImportRecord | ActivityFromImported(r2) == activity
        ensures Repeats(first, ImportExistingCourse(first.store, r2, course,
                                                    CourseByIdnumber(first.store, course.idnumber).value,
                                                    activity, thumbnail, env))
      {
        ExistingCourseIdempotent(s1, r, r2, course, existing, activity, thumbnail, env);
      }
  }

  /** The second import of the record, given what the first left behind. */
  lemma SecondImport(s: Store, r: ImportRecord, q: Option<nat>, first: Imported, thumbnail: bool, env: Env)
    requires Valid(s) && ValidRecord(r)
    requires r.externalMarkCompleteExternally == 0 || r.externalMarkCompleteExternally == 1
    requires EmptyStr(r.courseCategoryIdnumber) ==> q == r.category
    requires var (course, s1) := CourseFromImported(s, r, env.now);
      && first.store.categories == s1.categories
      && CourseByIdnumber(first.store, course.idnumber).Some?
      && forall r2: ImportRecord :: ActivityFromImported(r2) == ActivityFromImported(r) ==>
           Repeats(first, ImportExistingCourse(first.store, r2, course,
                                               CourseByIdnumber(first.store, course.idnumber).value,
                                               ActivityFromImported(r), thumbnail, env))
    ensures Repeats(first, ApplyRecord(first.store, r.(category := q), thumbnail, env))
  {
    var (course, s1) := CourseFromImported(s, r, env.now);
    var r2 := r.(category := q);
    assert ActivityFromImported(r2) == ActivityFromImported(r);
    CourseFromImportedAgain(s, r, q, env.now, first.store);
    ApplyRecordExisting(first.store, r2, course, thumbnail, env);
  }

  /**
    `import_percio_asset` twice on a valid store: once the parent category
    resolves, the first import does not throw and keeps the store valid, and
    the second import of the same asset writes nothing and reports the same
    course and activity as not updated (or, for an invalid asset, repeats the
    same rejection).
   */
  lemma ImportAssetIdempotent(s: Store, a: Asset, parent: CategoryRef, thumbnail: bool, env: Env)
    requires Valid(s)
    requires ResolveParent(s, parent).Ok?
    ensures ImportAsset(s, a, parent, thumbnail, env).Ok?
    ensures var first := ImportAsset(s, a, parent, thumbnail, env).value;
      && Valid(first.store)
      && first.store.defaultCategory == s.defaultCategory
      && s.categories <= first.store.categories
      && (first.result.success ==> Repeats(first, ImportAsset(first.store, a, parent, thumbnail, env)))
      && (!first.result.success ==> ImportAsset(first.store, a, parent, thumbnail, env) == Ok(first))
  {
    var p := ResolveParent(s, parent).value;
    var r := ToImportRecord(a, p, env.presentation);
    assert ImportAsset(s, a, parent, thumbnail, env) == ApplyRecord(s, r, thumbnail, env);
    if ValidRecord(r) {
      ApplyRecordIdempotent(s, r, r.category, thumbnail, env);
      var t := ApplyRecord(s, r, thumbnail, env).value.store;
      var q := ParentAgain(s, t, parent, AssetCategory(a).idnumber);
      RecordWithParent(a, p, q, env.presentation);
      ApplyRecordIdempotent(s, r, q, thumbnail, env);
      assert ImportAsset(t, a, parent, thumbnail, env) == ApplyRecord(t, r.(category := q), thumbnail, env);
    }
  }

  /**
    The parent resolves again after an import: to the same category when the
    import wrote no category, and without throwing in any case.
   */
  lemma ParentAgain(s: Store, t: Store, parent: CategoryRef, idnumber: string) returns (q: Option<nat>)
    requires ResolveParent(s, parent).Ok?
    requires s.categories <= t.categories && t.defaultCategory == s.defaultCategory
    requires EmptyStr(idnumber) ==> t.categories == s.categories
    ensures ResolveParent(t, parent) == Ok(q)
    ensures EmptyStr(idnumber) ==> q == ResolveParent(s, parent).value
  {
    var extra := t.categories[|s.categories|..];
    assert t.categories == s.categories + extra;
    ResolveParentStable(s, extra, parent);
    ResolveParentFrame(s.(categories := s.categories + extra), t, parent);
    if EmptyStr(idnumber) {
      ResolveParentFrame(s, t, parent);
    }
    q := ResolveParent(t, parent).value;
  }

  /** The record of an asset under another parent differs only in its category. */
  lemma RecordWithParent(a: Asset, p: Option<nat>, q: Option<nat>, pres: Presentation)
    ensures ToImportRecord(a, q, pres) == ToImportRecord(a, p, pres).(category := q)
  {
  }

  /**
    On a valid store where the parent resolves, `import_percio_asset` does
    not throw, keeps the store valid, keeps the default category and only
    appends categories.
   */
  lemma ImportAssetSafe(s: Store, a: Asset, parent: CategoryRef, thumbnail: bool, env: Env)
    requires Valid(s)
    requires ResolveParent(s, parent).Ok?
    ensures ImportAsset(s, a, parent, thumbnail, env).Ok?
    ensures var t := ImportAsset(s, a, parent, thumbnail, env).value.store;
      && Valid(t)
      && t.defaultCategory == s.defaultCategory
      && s.categories <= t.categories
  {
    ImportAssetIdempotent(s, a, parent, thumbnail, env);
  }
}

=== FILE: mapper.dfy ===
/**
  The asset mapper: a Percipio catalog asset becomes an External Content import
  record (course fields, activity fields, derived category and tags), and the
  record is checked for the fields a course needs.
 */
module Mapper {
  import opened Php
  import opened Store
  import opened Categories

  /** A channel or journey an asset is associated with. */
  datatype Association = Association(id: string, title: string)

  datatype Associations = Associations(
    channels: seq<Association>,
    journeys: seq<Association>,
    areas: seq<string>,
    subjects: seq<string>)

  datatype ContentType = ContentType(percipioType: string, displayLabel: string)

  /**
    The asset fields the sync reads. A missing scalar is the empty string, a
    missing list the empty sequence. `titles` are the titles of
    `localizedMetadata`, in order.
   */
  datatype Asset = Asset(
    id: string,
    xapiActivityId: string,
    contentType: ContentType,
    titles: seq<string>,
    localeCodes: seq<string>,
    status: string,
    imageUrl: string,
    keywords: seq<string>,
    associations: Associations)

  /**
    The collaborators the mapping calls but this model does not look inside:
    the Mustache rendering of an asset (plain, or with thumbnail and launch
    link) and the External Content plugin's display defaults.
   */
  datatype Presentation = Presentation(
    render: (Asset, bool) -> string,
    printHeading: Option<string>,
    printIntro: Option<string>,
    printLastModified: Option<string>)

  /** `localizedMetadata[0]->title`. */
  function Title(a: Asset): string {
    if |a.titles| > 0 then a.titles[0] else ""
  }

  /** `localeCodes[0]`. */
  function Locale(a: Asset): string {
    if |a.localeCodes| > 0 then a.localeCodes[0] else ""
  }

  /** How the lower-cased Percipio type places an asset in the category tree. */
  datatype Kind =
    | Container  // channel, journey: the asset is itself a category
    | Leaf       // audiobook, book, course, linked_content, video: filed under its first channel
    | Unlisted   // any other type: no category

  function KindOf(percipioType: string): Kind {
    var t := ToLower(percipioType);
    if t == "channel" || t == "journey" then Container
    else if t in ["audiobook", "book", "course", "linked_content", "video"] then Leaf
    else Unlisted
  }

  /** The category id-number and name derived from an asset. */
  datatype CategoryInfo = CategoryInfo(idnumber: string, name: string)

  /**
    `get_percio_asset_category`: a container names its own category, a leaf
    the category of its first channel; the locale is appended to both, and an
    empty id or title gives an empty field.
   */
  function AssetCategory(a: Asset): (c: CategoryInfo)
    ensures KindOf(a.contentType.percipioType) == Container ==>
      && c.idnumber == (if EmptyStr(a.id) then "" else a.id + "_" + Locale(a))
      && c.name == (if EmptyStr(Title(a)) then "" else Title(a) + " [" + Locale(a) + "]")
    ensures KindOf(a.contentType.percipioType) == Leaf && |a.associations.channels| > 0 ==>
      var ch := a.associations.channels[0];
      && c.idnumber == (if EmptyStr(ch.id) then "" else ch.id + "_" + Locale(a))
      && c.name == (if EmptyStr(ch.title) then "" else ch.title + " [" + Locale(a) + "]")
    ensures KindOf(a.contentType.percipioType) == Unlisted
            || (KindOf(a.contentType.percipioType) == Leaf && |a.associations.channels| == 0) ==>
      c == CategoryInfo("", "")
  {
    var (id, name) :=
      match KindOf(a.contentType.percipioType)
      case Container => (a.id, Title(a))
      case Leaf =>
        if |a.associations.channels| > 0
        then (a.associations.channels[0].id, a.associations.channels[0].title)
        else ("", "")
      case Unlisted => ("", "");
    CategoryInfo(
      if EmptyStr(id) then "" else id + "_" + Locale(a),
      if EmptyStr(name) then "" else name + " [" + Locale(a) + "]")
  }

  /** Leaf assets in the same first channel and locale share one category. */
  lemma LeafCategoryPerChannel(a: Asset, b: Asset)
    requires KindOf(a.contentType.percipioType) == Leaf && KindOf(b.contentType.percipioType) == Leaf
    requires |a.associations.channels| > 0 && |b.associations.channels| > 0
    requires a.associations.channels[0] == b.associations.channels[0]
    requires Locale(a) == Locale(b)
    ensures AssetCategory(a) == AssetCategory(b)
  {
  }

  function Titles(xs: seq<Association>): (r: seq<string>)
    ensures |r| == |xs|
    ensures forall i :: 0 <= i < |xs| ==> r[i] == xs[i].title
  {
    if xs == [] then [] else [xs[0].title] + Titles(xs[1..])
  }

  /**
    The tags before trimming, in order: the type's display label; the asset's
    own title for a container, otherwise every channel title then every journey
    title; then all keywords, areas and subjects. Nothing is cut or
    de-duplicated; a channel or journey without a title contributes "" where
    `array_column` would skip it.
   */
  function TagList(a: Asset): (t: seq<string>)
    ensures |t| >= 1 && t[0] == a.contentType.displayLabel
    ensures var k := KindOf(a.contentType.percipioType);
            var mid := if k == Container then 1
                       else |a.associations.channels| + |a.associations.journeys|;
            var kw := 1 + mid;
            var ar := kw + |a.keywords|;
            var sb := ar + |a.associations.areas|;
            && |t| == sb + |a.associations.subjects|
            && (k == Container ==> t[1] == Title(a))
            && (k != Container ==>
                  (forall i :: 0 <= i < |a.associations.channels| ==>
                     t[1 + i] == a.associations.channels[i].title)
                  && (forall i :: 0 <= i < |a.associations.journeys| ==>
                     t[1 + |a.associations.channels| + i] == a.associations.journeys[i].title))
            && t[kw..ar] == a.keywords
            && t[ar..sb] == a.associations.areas
            && t[sb..] == a.associations.subjects
  {
    var ownOrParents :=
      if KindOf(a.contentType.percipioType) == Container then [Title(a)]
      else Titles(a.associations.channels) + Titles(a.associations.journeys);
    [a.contentType.displayLabel] + ownOrParents + a.keywords
      + a.associations.areas + a.associations.subjects
  }

  /** `get_percio_asset_tags`: every tag trimmed, joined with '|'. */
  function Tags(a: Asset): string {
    Implode('|', TrimAll(TagList(a)))
  }

  /** The tag list of a course built from a record: `explode('|', ...)` unless the string is empty. */
  function SplitTags(tags: string): seq<string> {
    if EmptyStr(tags) then [] else Explode('|', tags)
  }

  /**
    Splitting the tag string gives back every trimmed tag, in order and without
    loss, when no tag holds a '|' and the joined string is not empty.
   */
  lemma TagsRoundTrip(a: Asset)
    requires forall i :: 0 <= i < |TagList(a)| ==> '|' !in Trim(TagList(a)[i])
    ensures !EmptyStr(Tags(a)) ==> SplitTags(Tags(a)) == TrimAll(TagList(a))
    ensures EmptyStr(Tags(a)) ==> SplitTags(Tags(a)) == []
  {
    if !EmptyStr(Tags(a)) {
      ExplodeImplode('|', TrimAll(TagList(a)));
    }
  }

  /** The import record `percio_asset_to_externalcontentimport` builds. */
  datatype ImportRecord = ImportRecord(
    category: Option<nat>,
    courseIdnumber: string,
    courseShortname: string,
    courseFullname: string,
    courseSummary: string,
    courseTags: string,
    courseVisible: int,
    courseThumbnail: string,
    courseCategoryIdnumber: string,
    courseCategoryName: string,
    externalName: string,
    externalIntro: string,
    externalContent: string,
    externalMarkCompleteExternally: int,
    printHeading: Option<string>,
    printIntro: Option<string>,
    printLastModified: Option<string>)

  /**
    The record for an asset under an already resolved parent category. Names
    are cut to the column widths: the short name keeps 215 characters of the
    title and appends the asset id, the full name and activity name keep 255.
   */
  function ToImportRecord(a: Asset, parent: Option<nat>, p: Presentation): (r: ImportRecord)
    ensures r.courseIdnumber == a.xapiActivityId
    ensures r.courseFullname <= Title(a)
    ensures |r.courseFullname| == if |Title(a)| <= 255 then |Title(a)| else 255
    ensures r.externalName == r.courseFullname
    ensures var head := Substr(Title(a), 215);
            r.courseShortname == head + " (" + a.id + ")" && head <= r.courseFullname
    ensures r.courseVisible == 1 <==> StrCaseEq(a.status, "ACTIVE")
    ensures r.courseVisible == 0 <==> !StrCaseEq(a.status, "ACTIVE")
    ensures r.externalMarkCompleteExternally == 0 <==> StrCaseEq(a.contentType.percipioType, "CHANNEL")
    ensures r.externalMarkCompleteExternally == 1 <==> !StrCaseEq(a.contentType.percipioType, "CHANNEL")
    ensures r.courseSummary == r.externalIntro == p.render(a, false)
    ensures r.externalContent == p.render(a, true)
    ensures r.category == parent
    ensures r.courseTags == Tags(a) && r.courseThumbnail == a.imageUrl
    ensures (r.printHeading, r.printIntro, r.printLastModified) == (p.printHeading, p.printIntro, p.printLastModified)
    ensures (r.courseCategoryIdnumber, r.courseCategoryName) == (AssetCategory(a).idnumber, AssetCategory(a).name)
  {
    var cat := AssetCategory(a);
    var description := p.render(a, false);
    ImportRecord(
      category := parent,
      courseIdnumber := a.xapiActivityId,
      courseShortname := Substr(Title(a), 215) + " (" + a.id + ")",
      courseFullname := Substr(Title(a), 255),
      courseSummary := description,
      courseTags := Tags(a),
      courseVisible := if StrCaseEq(a.status, "ACTIVE") then 1 else 0,
      courseThumbnail := a.imageUrl,
      courseCategoryIdnumber := cat.idnumber,
      courseCategoryName := cat.name,
      externalName := Substr(Title(a), 255),
      externalIntro := description,
      externalContent := p.render(a, true),
      externalMarkCompleteExternally := if StrCaseEq(a.contentType.percipioType, "CHANNEL") then 0 else 1,
      printHeading := p.printHeading,
      printIntro := p.printIntro,
      printLastModified := p.printLastModified)
  }

  /** The record for an asset, resolving the parent category first (which may throw). */
  function AssetToImport(s: Store, a: Asset, parent: CategoryRef, p: Presentation): (r: Result<ImportRecord>)
    ensures r.Thrown? <==> ResolveParent(s, parent).Thrown?
    ensures r.Ok? ==> r.value == ToImportRecord(a, ResolveParent(s, parent).value, p)
  {
    match ResolveParent(s, parent)
    case Thrown(f) => Thrown(f)
    case Ok(category) => Ok(ToImportRecord(a, category, p))
  }

  /** `validate_import_record`: the six fields a course and its activity need are not empty. */
  predicate ValidRecord(r: ImportRecord) {
    && !EmptyStr(r.courseIdnumber)
    && !EmptyStr(r.courseShortname)
    && !EmptyStr(r.courseFullname)
    && !EmptyStr(r.externalName)
    && !EmptyStr(r.externalIntro)
    && !EmptyStr(r.externalContent)
  }

  /** A prefix of at least two characters is empty (in PHP's sense) exactly when the string is. */
  lemma SubstrEmpty(t: string, n: nat)
    requires n >= 2
    ensures EmptyStr(Substr(t, n)) <==> EmptyStr(t)
  {
    var h := Substr(t, n);
    if h == "0" {
      assert |t| == 1 && t[0] == '0';
      assert t == "0";
    }
  }

  /**
    Which assets give a valid record: the short name is never empty, so an
    asset is accepted exactly when it has an xAPI activity id, a title and two
    non-empty renderings.
   */
  lemma ValidRecordOfAsset(a: Asset, parent: Option<nat>, p: Presentation)
    ensures ValidRecord(ToImportRecord(a, parent, p)) <==>
      && !EmptyStr(a.xapiActivityId)
      && !EmptyStr(Title(a))
      && !EmptyStr(p.render(a, false))
      && !EmptyStr(p.render(a, true))
  {
    ShortnameOfRecord(a, parent, p);
    FullnameOfRecord(a, parent, p);
    ValidRecordFields(ToImportRecord(a, parent, p), a, p);
  }

  /** The short name is never empty: it ends in the bracketed asset id. */
  lemma ShortnameOfRecord(a: Asset, parent: Option<nat>, p: Presentation)
    ensures !EmptyStr(ToImportRecord(a, parent, p).courseShortname)
  {
    var short := ToImportRecord(a, parent, p).courseShortname;
    var head := Substr(Title(a), 215);
    assert short == head + " (" + a.id + ")";
    assert |short| == |head| + |a.id| + 3;
    LongNotEmpty(short);
  }

  /** A string of two characters or more is never empty in PHP's sense. */
  lemma LongNotEmpty(t: string)
    requires |t| >= 2
    ensures !EmptyStr(t)
  {
  }

  /** The full name is empty exactly when the title is. */
  lemma FullnameOfRecord(a: Asset, parent: Option<nat>, p: Presentation)
    ensures EmptyStr(ToImportRecord(a, parent, p).courseFullname) <==> EmptyStr(Title(a))
  {
    assert ToImportRecord(a, parent, p).courseFullname == Substr(Title(a), 255);
    SubstrEmpty(Title(a), 255);
  }

  /** The validity of a record whose fields carry the asset's as the mapper puts them. */
  lemma ValidRecordFields(r: ImportRecord, a: Asset, p: Presentation)
    requires r.courseIdnumber == a.xapiActivityId && r.externalName == r.courseFullname
    requires !EmptyStr(r.courseShortname)
    requires EmptyStr(r.courseFullname) <==> EmptyStr(Title(a))
    requires r.externalIntro == p.render(a, false) && r.externalContent == p.render(a, true)
    ensures ValidRecord(r) <==>
      && !EmptyStr(a.xapiActivityId)
      && !EmptyStr(Title(a))
      && !EmptyStr(p.render(a, false))
      && !EmptyStr(p.render(a, true))
  {
  }
}

=== FILE: paging.dfy ===
/**
  The paging protocol both catalog loops follow. A query's missing or empty
  parameters get defaults; after each page the next request moves the offset
  on by the page size and, once the server has handed out a paging request
  id, keeps sending that id. The loop continues while fewer assets have been
  received than the `x-total-count` header of the latest page announces.
 */
module Paging {
  import opened Php

  /** The request parameters as a caller passes them; None is an absent key. */
  datatype Query = Query(
    offset: Option<int>,
    max: Option<int>,
    pagingRequestId: Option<string>,
    updatedSince: Option<string>)

  /** The request parameters with the defaults applied; None is PHP null. */
  datatype Cursor = Cursor(
    offset: int,
    max: int,
    pagingRequestId: Option<string>,
    updatedSince: Option<string>)

  /** The page size used when the caller gives none (or zero). */
  const DefaultMax: int := 1000

  /** An optional integer parameter that `empty()` does not reject. */
  predicate Given(o: Option<int>) {
    o.Some? && o.value != 0
  }

  /** An optional string parameter with PHP's `empty()` turned into null. */
  function NonEmpty(o: Option<string>): (r: Option<string>)
    ensures r.Some? <==> !EmptyOpt(o)
    ensures r.Some? ==> r == o
  {
    if EmptyOpt(o) then None else o
  }

  /**
    The defaults of `get_catalog_content` and `get_all_catalog_content`: an
    empty offset is 0, an empty page size is 1000, an empty paging id or
    start date is null. Every parameter `empty()` accepts is kept.
   */
  function Defaults(q: Query): (c: Cursor)
    ensures c.offset == (if Given(q.offset) then q.offset.value else 0)
    ensures c.max == (if Given(q.max) then q.max.value else DefaultMax)
    ensures c.max != 0
    ensures c.pagingRequestId == NonEmpty(q.pagingRequestId)
    ensures c.updatedSince == NonEmpty(q.updatedSince)
  {
    Cursor(
      if Given(q.offset) then q.offset.value else 0,
      if Given(q.max) then q.max.value else DefaultMax,
      NonEmpty(q.pagingRequestId),
      NonEmpty(q.updatedSince))
  }

  /** A cursor passed back as a query, as the loops hand their data array to the single-page call. */
  function AsQuery(c: Cursor): Query {
    Query(Some(c.offset), Some(c.max), c.pagingRequestId, c.updatedSince)
  }

  /**
    Applying the defaults again to a cursor whose paging id is null or
    non-empty changes nothing: the single-page call sends what the loop holds.
   */
  lemma DefaultsStable(c: Cursor)
    requires c.max != 0
    requires c.pagingRequestId.None? || !EmptyStr(c.pagingRequestId.value)
    requires c.updatedSince.None? || !EmptyStr(c.updatedSince.value)
    ensures Defaults(AsQuery(c)) == c
  {
  }

  /** The response headers of one page. */
  type Headers = map<string, string>

  /** `intval($headers['x-total-count'])`; a missing header reads as null, which is 0. */
  function TotalCount(h: Headers): int {
    if "x-total-count" in h then IntVal(h["x-total-count"]) else 0
  }

  /** `$headers['x-paging-request-id']`, null when missing. */
  function PagingHeader(h: Headers): Option<string> {
    if "x-paging-request-id" in h then Some(h["x-paging-request-id"]) else None
  }

  /**
    The data for the next page: the first non-empty paging id is latched and
    the offset moves on by the page size; nothing else changes.
   */
  function Advance(c: Cursor, h: Headers): (n: Cursor)
    ensures n.offset == c.offset + c.max && n.max == c.max && n.updatedSince == c.updatedSince
    ensures !EmptyOpt(c.pagingRequestId) ==> n.pagingRequestId == c.pagingRequestId
    ensures EmptyOpt(c.pagingRequestId) ==> n.pagingRequestId == PagingHeader(h)
  {
    Cursor(
      c.offset + c.max,
      c.max,
      if EmptyOpt(c.pagingRequestId) then PagingHeader(h) else c.pagingRequestId,
      c.updatedSince)
  }

  /** The cursor after a run of pages with the given headers. */
  function AdvanceAll(c: Cursor, hs: seq<Headers>): Cursor
    decreases |hs|
  {
    if |hs| == 0 then c else AdvanceAll(Advance(c, hs[0]), hs[1..])
  }

  /** One more page appended to a run is one more step. */
  lemma {:induction false} AdvanceAllSnoc(c: Cursor, hs: seq<Headers>, h: Headers)
    ensures AdvanceAll(c, hs + [h]) == Advance(AdvanceAll(c, hs), h)
    decreases |hs|
  {
    if |hs| > 0 {
      assert (hs + [h])[1..] == hs[1..] + [h];
      AdvanceAllSnoc(Advance(c, hs[0]), hs[1..], h);
    }
  }

  /** After k pages the offset has moved on by k page sizes, and the page size never changes. */
  lemma {:induction false} AdvanceAllOffset(c: Cursor, hs: seq<Headers>)
    ensures AdvanceAll(c, hs).offset == c.offset + |hs| * c.max
    ensures AdvanceAll(c, hs).max == c.max
    ensures AdvanceAll(c, hs).updatedSince == c.updatedSince
    decreases |hs|
  {
    if |hs| > 0 {
      AdvanceAllOffset(Advance(c, hs[0]), hs[1..]);
    }
  }

  /** Once a non-empty paging id is held, every later request carries it. */
  lemma {:induction false} AdvanceAllKeepsId(c: Cursor, hs: seq<Headers>)
    requires !EmptyOpt(c.pagingRequestId)
    ensures AdvanceAll(c, hs).pagingRequestId == c.pagingRequestId
    decreases |hs|
  {
    if |hs| > 0 {
      AdvanceAllKeepsId(Advance(c, hs[0]), hs[1..]);
    }
  }

  /**
    Starting without a paging id, the id of the first page (when non-empty)
    is the one every later request carries.
   */
  lemma LatchFirstId(c: Cursor, hs: seq<Headers>)
    requires EmptyOpt(c.pagingRequestId)
    requires |hs| > 0 && !EmptyOpt(PagingHeader(hs[0]))
    ensures AdvanceAll(c, hs).pagingRequestId == PagingHeader(hs[0])
  {
    AdvanceAllKeepsId(Advance(c, hs[0]), hs[1..]);
  }
}

=== FILE: php.dfy ===
/**
  The PHP semantics the plugin leans on, restated over Dafny values: nullable
  values and exceptions, `empty()`, `substr`, `trim`, `implode`/`explode`,
  `strtolower`/`strcasecmp`, `intval` and integer-to-string conversion.
  Strings are sequences of characters; PHP's byte strings and multi-byte
  truncation are not distinguished.
 */
module Php {

  /** A PHP value that may be `null`. */
  datatype Option<+T> = None | Some(value: T) {
    function GetOr(default: T): T {
      match this
      case Some(v) => v
      case None => default
    }
  }

  /**
    What the plugin throws, or lets through from the host. The first two are
    `Exception`s; an engine error (a TypeError, or a property assigned on
    `false`) is a PHP `Error`, which `catch (\Exception $e)` does not catch.
   */
  datatype Failure =
    | WebServiceError(detail: string)  // moodle_exception 'errorwebservice' with its detail text
    | MissingRecord(table: string)     // a MUST_EXIST read that found no row
    | EngineError(what: string)        // a PHP Error, e.g. array_merge or count on an object
  {
    predicate IsException() {
      !EngineError?
    }
  }

  /** A computation that either returns a value or throws. */
  datatype Result<+T> = Ok(value: T) | Thrown(failure: Failure)

  /** A scalar as it sits in a PHP array or property. */
  datatype Value = Null | Int(i: int) | Str(s: string)

  /** `empty($s)` for a string: both "" and "0" are empty. */
  predicate EmptyStr(s: string) {
    s == "" || s == "0"
  }

  /** `empty($x)` for a nullable string. */
  predicate EmptyOpt(o: Option<string>) {
    o.None? || EmptyStr(o.value)
  }

  /** `empty($v)` for a scalar. */
  predicate EmptyValue(v: Value) {
    match v
    case Null => true
    case Int(i) => i == 0
    case Str(s) => EmptyStr(s)
  }

  /** A nullable string as a scalar. */
  function OptValue(o: Option<string>): Value {
    match o
    case None => Null
    case Some(s) => Str(s)
  }

  /** `substr($s, 0, $n)`: the first n characters, or all of s when it is shorter. */
  function Substr(s: string, n: nat): (r: string)
    ensures r <= s
    ensures |r| == if |s| < n then |s| else n
  {
    if |s| <= n then s else s[..n]
  }

  /** Concatenation is associative; stated once so that long proofs can cite it. */
  lemma ConcatAssoc<T>(a: seq<T>, b: seq<T>, c: seq<T>)
    ensures (a + b) + c == a + (b + c)
  {
  }

  // ---------------------------------------------------------------------------
  // trim

  /** The characters PHP's `trim` strips by default. */
  predicate IsTrimmed(c: char) {
    c == ' ' || c == '\t' || c == '\n' || c == '\r' || c == '\0' || c == '\U{000B}'
  }

  /** Every character of `s` is one `trim` strips. */
  predicate AllTrimmed(s: string) {
    forall k :: 0 <= k < |s| ==> IsTrimmed(s[k])
  }

  /** The end of the run of trimmed characters that starts at position k of `s`. */
  function TrimmedRunEnd(s: string, k: nat): (n: nat)
    requires k <= |s|
    ensures k <= n <= |s|
    ensures forall j :: k <= j < n ==> IsTrimmed(s[j])
    ensures n == |s| || !IsTrimmed(s[n])
    decreases |s| - k
  {
    if k < |s| && IsTrimmed(s[k]) then TrimmedRunEnd(s, k + 1) else k
  }

  /** The start of the run of trimmed characters that ends just before position k of `s`. */
  function TrimmedRunStart(s: string, k: nat): (n: nat)
    requires k <= |s|
    ensures n <= k
    ensures forall j :: n <= j < k ==> IsTrimmed(s[j])
    ensures n == 0 || !IsTrimmed(s[n - 1])
  {
    if k > 0 && IsTrimmed(s[k - 1]) then TrimmedRunStart(s, k - 1) else k
  }

  /** `ltrim($s)`: drops exactly the leading run of trimmed characters. */
  function TrimLeft(s: string): (r: string)
    ensures |r| <= |s| && r == s[|s| - |r|..]
    ensures forall i :: 0 <= i < |s| - |r| ==> IsTrimmed(s[i])
    ensures r == [] || !IsTrimmed(r[0])
  {
    s[TrimmedRunEnd(s, 0)..]
  }

  /** `rtrim($s)`: drops exactly the trailing run of trimmed characters. */
  function TrimRight(s: string): (r: string)
    ensures |r| <= |s| && r == s[..|r|]
    ensures forall i :: |r| <= i < |s| ==> IsTrimmed(s[i])
    ensures r == [] || !IsTrimmed(r[|r| - 1])
  {
    s[..TrimmedRunStart(s, |s|)]
  }

  /** `trim($s)`: neither end of the result is a trimmed character; an unpadded string is kept. */
  function Trim(s: string): (r: string)
    ensures |r| <= |s|
    ensures r == [] || (!IsTrimmed(r[0]) && !IsTrimmed(r[|r| - 1]))
    ensures (s == [] || (!IsTrimmed(s[0]) && !IsTrimmed(s[|s| - 1]))) ==> r == s
  {
    TrimEnds(s);
    TrimRight(TrimLeft(s))
  }

  /**
    What `trim` keeps is one contiguous piece of `s`, and everything it cuts
    from either side is a trimmed character.
   */
  lemma TrimCutsTrimmed(s: string)
    ensures exists i :: 0 <= i <= |s| - |Trim(s)| && Trim(s) == s[i..i + |Trim(s)|]
              && AllTrimmed(s[..i]) && AllTrimmed(s[i + |Trim(s)|..])
  {
    TrimCutAt(s);
    var i := |s| - |TrimLeft(s)|;
    assert Trim(s) == s[i..i + |Trim(s)|] && AllTrimmed(s[..i]) && AllTrimmed(s[i + |Trim(s)|..]);
  }

  /** The cut on the left is what `ltrim` drops, and the rest of the cut is what `rtrim` drops. */
  lemma TrimCutAt(s: string)
    ensures var i := |s| - |TrimLeft(s)|;
            && i + |Trim(s)| <= |s| && Trim(s) == s[i..i + |Trim(s)|]
            && AllTrimmed(s[..i]) && AllTrimmed(s[i + |Trim(s)|..])
  {
    var l := TrimLeft(s);
    var r := TrimRight(l);
    assert Trim(s) == r;
    TrimLeftCutsTrimmed(s);
    TrimRightCutsTrimmed(l);
    CutBothEnds(s, l, r);
  }

  /** Cutting a trimmed head off `s` and then a trimmed tail off the rest cuts a slice out of `s`. */
  lemma CutBothEnds(s: string, l: string, r: string)
    requires |l| <= |s| && l == s[|s| - |l|..] && AllTrimmed(s[..|s| - |l|])
    requires |r| <= |l| && r == l[..|r|] && AllTrimmed(l[|r|..])
    ensures var i := |s| - |l|;
            && i + |r| <= |s| && r == s[i..i + |r|]
            && AllTrimmed(s[..i]) && AllTrimmed(s[i + |r|..])
  {
    var i := |s| - |l|;
    SliceOfSuffix(s, i, |r|);
    DropOfSuffix(s, i, |r|);
  }

  /** Neither end of the trimmed string is a trimmed character, and an unpadded string is kept. */
  lemma TrimEnds(s: string)
    ensures var r := TrimRight(TrimLeft(s));
            && (r == [] || (!IsTrimmed(r[0]) && !IsTrimmed(r[|r| - 1])))
            && ((s == [] || (!IsTrimmed(s[0]) && !IsTrimmed(s[|s| - 1]))) ==> r == s)
  {
    var l := TrimLeft(s);
    var r := TrimRight(l);
    assert r != [] ==> r[0] == l[0];
    if s == [] || (!IsTrimmed(s[0]) && !IsTrimmed(s[|s| - 1])) {
      assert l == s;
    }
  }

  lemma SliceOfSuffix(s: string, i: nat, n: nat)
    requires i + n <= |s|
    ensures s[i..][..n] == s[i..i + n]
  {
  }

  lemma DropOfSuffix(s: string, i: nat, n: nat)
    requires i + n <= |s|
    ensures s[i..][n..] == s[i + n..]
  {
  }

  lemma TrimLeftCutsTrimmed(s: string)
    ensures AllTrimmed(s[..|s| - |TrimLeft(s)|])
  {
    var head := s[..|s| - |TrimLeft(s)|];
    forall k | 0 <= k < |head|
      ensures IsTrimmed(head[k])
    {
      assert head[k] == s[k];
    }
  }

  lemma TrimRightCutsTrimmed(l: string)
    ensures AllTrimmed(l[|TrimRight(l)|..])
  {
    var n := |TrimRight(l)|;
    var tail := l[n..];
    forall k | 0 <= k < |tail|
      ensures IsTrimmed(tail[k])
    {
      assert tail[k] == l[n + k];
    }
  }



  /** `array_map('trim', $xs)`. */
  function TrimAll(xs: seq<string>): (r: seq<string>)
    ensures |r| == |xs|
    ensures forall i :: 0 <= i < |xs| ==> r[i] == Trim(xs[i])
  {
    if xs == [] then [] else [Trim(xs[0])] + TrimAll(xs[1..])
  }

  // ---------------------------------------------------------------------------
  // implode / explode

  /** `implode($sep, $xs)`. */
  function Implode(sep: char, xs: seq<string>): string {
    if |xs| == 0 then ""
    else if |xs| == 1 then xs[0]
    else xs[0] + [sep] + Implode(sep, xs[1..])
  }

  /** `explode($sep, $s)` for a one-character separator: the pieces between separators. */
  function Explode(sep: char, s: string): (parts: seq<string>)
    ensures |parts| >= 1
    ensures forall i :: 0 <= i < |parts| ==> sep !in parts[i]
  {
    if |s| == 0 then [""]
    else
      var rest := Explode(sep, s[1..]);
      if s[0] == sep then [""] + rest
      else [[s[0]] + rest[0]] + rest[1..]
  }

  /** A string without the separator explodes to itself. */
  lemma {:induction false} ExplodeNoSeparator(sep: char, x: string)
    requires sep !in x
    ensures Explode(sep, x) == [x]
  {
    if |x| > 0 {
      ExplodeNoSeparator(sep, x[1..]);
      assert [x[0]] + x[1..] == x;
    }
  }

  /** Exploding `x + sep + t` splits off x when x holds no separator. */
  lemma {:induction false} ExplodeFirstPiece(sep: char, x: string, t: string)
    requires sep !in x
    ensures Explode(sep, x + [sep] + t) == [x] + Explode(sep, t)
  {
    if |x| == 0 {
      assert x + [sep] + t == [sep] + t;
      assert ([sep] + t)[1..] == t;
    } else {
      ExplodeFirstPiece(sep, x[1..], t);
      assert (x + [sep] + t)[1..] == x[1..] + [sep] + t;
      assert [x[0]] + x[1..] == x;
    }
  }

  /** explode inverts implode when no piece holds the separator. */
  lemma {:induction false} ExplodeImplode(sep: char, xs: seq<string>)
    requires |xs| >= 1
    requires forall i :: 0 <= i < |xs| ==> sep !in xs[i]
    ensures Explode(sep, Implode(sep, xs)) == xs
  {
    if |xs| == 1 {
      ExplodeNoSeparator(sep, xs[0]);
    } else {
      ExplodeImplode(sep, xs[1..]);
      ExplodeFirstPiece(sep, xs[0], Implode(sep, xs[1..]));
      assert [xs[0]] + xs[1..] == xs;
    }
  }

  /** implode inverts explode on every string. */
  lemma {:induction false} ImplodeExplode(sep: char, s: string)
    ensures Implode(sep, Explode(sep, s)) == s
  {
    if |s| > 0 {
      var rest := Explode(sep, s[1..]);
      ImplodeExplode(sep, s[1..]);
      if s[0] == sep {
        assert Implode(sep, [""] + rest) == [sep] + Implode(sep, rest);
        assert [s[0]] + s[1..] == s;
      } else {
        var parts := [[s[0]] + rest[0]] + rest[1..];
        if |rest| == 1 {
          assert s == [s[0]] + s[1..];
        } else {
          assert parts[1..] == rest[1..];
          assert Implode(sep, rest) == rest[0] + [sep] + Implode(sep, rest[1..]);
          assert s == [s[0]] + s[1..];
        }
      }
    }
  }

  // ---------------------------------------------------------------------------
  // case

  /** ASCII lower-casing of one character, as `strtolower` does. */
  function LowerChar(c: char): char {
    if 'A' <= c <= 'Z' then (c as int - 'A' as int + 'a' as int) as char else c
  }

  /** `strtolower($s)`. */
  function ToLower(s: string): (r: string)
    ensures |r| == |s|
    ensures forall i :: 0 <= i < |s| ==> r[i] == LowerChar(s[i])
    ensures forall i :: 0 <= i < |r| ==> !('A' <= r[i] <= 'Z')
  {
    if s == [] then [] else [LowerChar(s[0])] + ToLower(s[1..])
  }

  /** `strcasecmp($a, $b) == 0`: equal ignoring ASCII case. */
  predicate StrCaseEq(a: string, b: string) {
    ToLower(a) == ToLower(b)
  }

  // ---------------------------------------------------------------------------
  // integers and their decimal text

  function DigitChar(d: nat): char
    requires d < 10
  {
    ('0' as int + d) as char
  }

  predicate IsDigit(c: char) {
    '0' <= c <= '9'
  }

  /** The decimal text of a natural number, without leading zeros. */
  function NatToString(n: nat): (r: string)
    ensures |r| >= 1
    ensures forall i :: 0 <= i < |r| ==> IsDigit(r[i])
    ensures |r| > 1 ==> r[0] != '0'
  {
    if n < 10 then [DigitChar(n)] else NatToString(n / 10) + [DigitChar(n % 10)]
  }

  /** The decimal text PHP prints for an integer. */
  function IntToString(n: int): (r: string)
    ensures |r| >= 1
  {
    if n < 0 then "-" + NatToString(-n) else NatToString(n)
  }

  /** The whitespace `intval` skips before a number. */
  predicate IsLeadingSpace(c: char) {
    c == ' ' || c == '\t' || c == '\n' || c == '\r' || c == '\U{000B}' || c == '\U{000C}'
  }

  function SkipSpace(s: string): (r: string)
    ensures |r| <= |s|
  {
    if |s| > 0 && IsLeadingSpace(s[0]) then SkipSpace(s[1..]) else s
  }

  /** The length of the leading run of decimal digits. */
  function DigitRun(s: string): (n: nat)
    ensures n <= |s|
    ensures forall i :: 0 <= i < n ==> IsDigit(s[i])
    ensures n < |s| ==> !IsDigit(s[n])
  {
    if |s| > 0 && IsDigit(s[0]) then 1 + DigitRun(s[1..]) else 0
  }

  function DigitValue(c: char): nat
    requires IsDigit(c)
  {
    c as int - '0' as int
  }

  /** The value of a string of decimal digits. */
  function DecimalValue(d: string): nat
    requires forall i :: 0 <= i < |d| ==> IsDigit(d[i])
  {
    if |d| == 0 then 0 else DecimalValue(d[..|d| - 1]) * 10 + DigitValue(d[|d| - 1])
  }

  function UnsignedPrefixValue(s: string): nat {
    DecimalValue(s[..DigitRun(s)])
  }

  /**
    `intval($s)` for a string: leading whitespace, an optional sign, then the
    longest run of decimal digits; no digits at all give 0.
   */
  function IntVal(s: string): int {
    var t := SkipSpace(s);
    if |t| > 0 && t[0] == '-' then -(UnsignedPrefixValue(t[1..]) as int)
    else if |t| > 0 && t[0] == '+' then UnsignedPrefixValue(t[1..])
    else UnsignedPrefixValue(t)
  }

  lemma {:induction false} DecimalValueOfNatToString(n: nat)
    ensures DecimalValue(NatToString(n)) == n
  {
    var r := NatToString(n);
    if n >= 10 {
      DecimalValueOfNatToString(n / 10);
      assert r[..|r| - 1] == NatToString(n / 10);
    }
  }

  /** The digit run of digits followed by a non-digit ends where the digits end. */
  lemma {:induction false} DigitRunOfDigitsThen(d: string, rest: string)
    requires forall i :: 0 <= i < |d| ==> IsDigit(d[i])
    requires rest == [] || !IsDigit(rest[0])
    ensures DigitRun(d + rest) == |d|
  {
    if |d| > 0 {
      assert (d + rest)[1..] == d[1..] + rest;
      DigitRunOfDigitsThen(d[1..], rest);
    }
  }

  /** The digits of a natural number, followed by a non-digit, read back as that number. */
  lemma UnsignedReadBack(m: nat, rest: string)
    requires rest == [] || !IsDigit(rest[0])
    ensures UnsignedPrefixValue(NatToString(m) + rest) == m
  {
    var d := NatToString(m);
    DigitRunOfDigitsThen(d, rest);
    assert (d + rest)[..|d|] == d;
    DecimalValueOfNatToString(m);
  }

  /**
    intval reads back the text IntToString prints, whatever non-digit text
    follows it: a round trip on every integer.
   */
  lemma IntValOfIntToString(n: int, rest: string)
    requires rest == [] || !IsDigit(rest[0])
    ensures IntVal(IntToString(n) + rest) == n
  {
    var m: nat := if n < 0 then -n else n;
    var d := NatToString(m);
    UnsignedReadBack(m, rest);
    if n < 0 {
      var s := "-" + d + rest;
      assert SkipSpace(s) == s;
      assert s[1..] == d + rest;
    } else {
      assert !IsLeadingSpace(d[0]) && d[0] != '-' && d[0] != '+';
      assert SkipSpace(d + rest) == d + rest;
    }
  }
}

=== FILE: reconciler.dfy ===
/**
  Importing one asset: the course and activity a record describes are merged
  into what the store already holds for its id-number, created when missing,
  and linked to the course's activity completion criteria. Every decision is
  a pure function of the store and the record, so a second import of the same
  asset can be compared with the first.
 */
module Reconciler {
  import opened Php
  import opened Store
  import opened Categories
  import opened Mapper
  import StringSort

  /** What `add_course_thumbnail` reports: whether the download worked, and a status text. */
  datatype ThumbnailResponse = ThumbnailResponse(success: bool, status: string)

  /**
    The collaborators of an import: the presentation of an asset, Moodle's
    `format_text` for HTML, the clock that stamps a new course's start date,
    and the thumbnail download.
   */
  datatype Env = Env(
    presentation: Presentation,
    formatText: string -> string,
    now: int,
    addThumbnail: (nat, string) -> ThumbnailResponse)

  /** The course status line: created or updated (with the visibility), or not updated. */
  datatype CourseStatus = CourseCreated(visible: int) | CourseUpdated(visible: int) | CourseNotUpdated

  datatype ActivityStatus = ActivityCreated | ActivityUpdated | ActivityNotUpdated

  datatype ThumbnailStatus = ThumbnailFetched(status: string) | ThumbnailSkipped

  /** The per-asset processing record `import_percio_asset` returns. */
  datatype ImportResult = ImportResult(
    success: bool,
    warn: bool,
    courseShortname: string,
    error: Option<string>,
    courseStatus: Option<CourseStatus>,
    activityStatus: Option<ActivityStatus>,
    thumbnailStatus: Option<ThumbnailStatus>,
    courseId: Option<nat>,
    activityId: Option<nat>)

  /** An import's result together with the store it leaves behind. */
  datatype Imported = Imported(result: ImportResult, store: Store)

  /** The error text of a record that fails validation. */
  const InvalidImportRecord: string := "Invalid Import Record."

  // ---------------------------------------------------------------------------
  // course

  /** The fixed course settings a created course gets: single-activity format, completion on. */
  function CourseDefaults(now: int): map<string, Value> {
    map[
      "summaryformat" := Int(1),
      "format" := Str("singleactivity"),
      "numsections" := Int(0),
      "newsitems" := Int(0),
      "showgrades" := Int(0),
      "showreports" := Int(0),
      "startdate" := Int(now),
      "activitytype" := Str("externalcontent"),
      "enablecompletion" := Int(1)]
  }

  /**
    `create_course_from_imported`: the course fields come from the record, the
    tag string is split back into tags, and the category is found or created.
    Only the category table can change.
   */
  function CourseFromImported(s: Store, r: ImportRecord, now: int): (res: (Course, Store))
    ensures var (c, t) := res;
      && c.idnumber == r.courseIdnumber
      && c.shortname == r.courseShortname
      && c.fullname == r.courseFullname
      && c.summary == r.courseSummary
      && c.visible == r.courseVisible
      && (c.tags == [] <==> EmptyStr(r.courseTags))
      && (c.tags != [] ==> Implode('|', c.tags) == r.courseTags)
      && (forall i :: 0 <= i < |c.tags| ==> '|' !in c.tags[i])
      && (c.category, t) == GetOrCreateCategory(s, r.category, r.courseCategoryIdnumber, r.courseCategoryName)
      && t == s.(categories := t.categories)
      && s.categories <= t.categories && |t.categories| <= |s.categories| + 1
      && "startdate" in c.settings && c.settings["startdate"] == Int(now)
      && "format" in c.settings && c.settings["format"] == Str("singleactivity")
      && "enablecompletion" in c.settings && c.settings["enablecompletion"] == Int(1)
  {
    var (category, t) := GetOrCreateCategory(s, r.category, r.courseCategoryIdnumber, r.courseCategoryName);
    var tags := SplitTags(r.courseTags);
    ImplodeExplode('|', r.courseTags);
    (Course(0, r.courseIdnumber, r.courseShortname, r.courseFullname, r.courseSummary,
            r.courseVisible, tags, category, CourseDefaults(now)), t)
  }

  /**
    The course's tags are the only pipe-free list that joins back to the
    record's tag string.
   */
  lemma CourseTagsDetermined(s: Store, r: ImportRecord, now: int, xs: seq<string>)
    requires xs != [] && forall i :: 0 <= i < |xs| ==> '|' !in xs[i]
    requires Implode('|', xs) == r.courseTags && !EmptyStr(r.courseTags)
    ensures CourseFromImported(s, r, now).0.tags == xs
  {
    ExplodeImplode('|', xs);
  }

  /**
    A course built from an asset's record carries the asset's trimmed tags, in
    order, when no tag holds a '|'.
   */
  lemma RecordCourseTags(s: Store, a: Asset, parent: Option<nat>, p: Presentation, now: int)
    requires forall i :: 0 <= i < |TagList(a)| ==> '|' !in Trim(TagList(a)[i])
    ensures var tags := CourseFromImported(s, ToImportRecord(a, parent, p), now).0.tags;
            tags == if EmptyStr(Tags(a)) then [] else TrimAll(TagList(a))
  {
    TagsRoundTrip(a);
  }

  /**
    `update_course_with_imported`: both tag lists are sorted, the existing
    course takes the imported names, id-number, visibility, tags and category,
    and takes the imported summary unless the stored one is already its HTML
    rendering. None when that changes nothing.
   */
  function MergeCourse(existing: Course, imported: Course, formatText: string -> string): (r: Option<Course>)
    ensures r.None? <==>
      && existing.fullname == imported.fullname
      && existing.shortname == imported.shortname
      && existing.idnumber == imported.idnumber
      && existing.visible == imported.visible
      && multiset(existing.tags) == multiset(imported.tags)
      && existing.category == imported.category
      && (existing.summary == formatText(imported.summary) || existing.summary == imported.summary)
    ensures r.Some? ==>
      && r.value.id == existing.id
      && r.value.settings == existing.settings
      && r.value.fullname == imported.fullname
      && r.value.shortname == imported.shortname
      && r.value.idnumber == imported.idnumber
      && r.value.visible == imported.visible
      && StringSort.Sorted(r.value.tags) && multiset(r.value.tags) == multiset(imported.tags)
      && r.value.category == imported.category
      && r.value.summary == (if existing.summary == formatText(imported.summary) then existing.summary
                             else imported.summary)
  {
    var e := existing.(tags := StringSort.Sort(existing.tags));
    var merged := e.(
      fullname := imported.fullname,
      shortname := imported.shortname,
      idnumber := imported.idnumber,
      visible := imported.visible,
      tags := StringSort.Sort(imported.tags),
      category := imported.category,
      summary := if existing.summary != formatText(imported.summary) then imported.summary else existing.summary);
    StringSort.SortEqualIff(existing.tags, imported.tags);
    if merged != e then Some(merged) else None
  }

  /** The course an import continues with: the merge, or the existing course with its tags sorted. */
  function MergedCourse(existing: Course, imported: Course, formatText: string -> string): Course {
    MergeCourse(existing, imported, formatText).GetOr(existing.(tags := StringSort.Sort(existing.tags)))
  }

  /** Merging the same import into the course a merge produced changes nothing. */
  lemma MergeCourseIdempotent(existing: Course, imported: Course, formatText: string -> string)
    ensures MergeCourse(MergedCourse(existing, imported, formatText), imported, formatText).None?
  {
    var m := MergedCourse(existing, imported, formatText);
    if MergeCourse(existing, imported, formatText).Some? {
      assert multiset(m.tags) == multiset(imported.tags);
    } else {
      assert multiset(m.tags) == multiset(existing.tags);
    }
  }

  /** The order of either tag list never decides whether a course is updated. */
  lemma MergeCourseTagOrder(existing: Course, imported: Course, tags: seq<string>, formatText: string -> string)
    requires multiset(tags) == multiset(imported.tags)
    ensures MergeCourse(existing, imported.(tags := tags), formatText).None?
            <==> MergeCourse(existing, imported, formatText).None?
    ensures MergedCourse(existing, imported.(tags := tags), formatText)
            == MergedCourse(existing, imported, formatText)
  {
    StringSort.SortPermutationInvariant(tags, imported.tags);
  }

  // ---------------------------------------------------------------------------
  // activity

  /** The fixed activity settings: HTML formats, completion tracked automatically on view. */
  function ActivityDefaults(): map<string, Value> {
    map["introformat" := Int(1), "contentformat" := Int(1), "completion" := Int(2), "completionview" := Int(1)]
  }

  /** The position of a display option's key in the serialized array. */
  function OptionRank(key: OptionKey): nat {
    match key
    case PrintHeading => 0
    case PrintIntro => 1
    case PrintLastModified => 2
  }

  /**
    The display options of a record: each option the record carries, in the
    order heading, intro, last-modified. The last-modified entry holds the
    record's intro option, as the source assigns it.
   */
  function DisplayOptions(r: ImportRecord): (d: seq<DisplayOption>)
    ensures (exists i :: 0 <= i < |d| && d[i].key == PrintHeading) <==> r.printHeading.Some?
    ensures (exists i :: 0 <= i < |d| && d[i].key == PrintIntro) <==> r.printIntro.Some?
    ensures (exists i :: 0 <= i < |d| && d[i].key == PrintLastModified) <==> r.printLastModified.Some?
    ensures forall i :: 0 <= i < |d| && d[i].key == PrintHeading ==> d[i].value == Str(r.printHeading.value)
    ensures forall i :: 0 <= i < |d| && d[i].key == PrintIntro ==> d[i].value == Str(r.printIntro.value)
    ensures forall i :: 0 <= i < |d| && d[i].key == PrintLastModified ==> d[i].value == OptValue(r.printIntro)
    ensures forall i, j :: 0 <= i < j < |d| ==> OptionRank(d[i].key) < OptionRank(d[j].key)
  {
    var heading := if r.printHeading.Some? then [DisplayOption(PrintHeading, Str(r.printHeading.value))] else [];
    var intro := if r.printIntro.Some? then [DisplayOption(PrintIntro, Str(r.printIntro.value))] else [];
    var modified := if r.printLastModified.Some? then [DisplayOption(PrintLastModified, OptValue(r.printIntro))] else [];
    var d := heading + intro + modified;
    assert r.printHeading.Some? ==> d[0].key == PrintHeading;
    assert r.printIntro.Some? ==> d[|heading|].key == PrintIntro;
    assert r.printLastModified.Some? ==> d[|heading| + |intro|].key == PrintLastModified;
    d
  }

  /** `create_externalcontent_from_imported`: the activity fields come from the record. */
  function ActivityFromImported(r: ImportRecord): (a: Activity)
    ensures a.name == r.externalName && a.intro == r.externalIntro && a.content == r.externalContent
    ensures a.completionExternally == r.externalMarkCompleteExternally
    ensures a.displayOptions == DisplayOptions(r)
    ensures "completion" in a.settings && a.settings["completion"] == Int(2)
    ensures "completionview" in a.settings && a.settings["completionview"] == Int(1)
  {
    Activity(0, 0, r.externalName, r.externalIntro, r.externalContent,
             r.externalMarkCompleteExternally, DisplayOptions(r), ActivityDefaults())
  }

  /** `clean_param($n, PARAM_BOOL)` for an integer. */
  function CleanBool(n: int): (b: int)
    ensures b == 0 || b == 1
    ensures b == 0 <==> n == 0
  {
    if n != 0 then 1 else 0
  }

  /**
    `update_externalcontent_with_imported`: the existing activity takes the
    imported name, intro, content, display options and (as 0 or 1) the
    mark-complete-externally flag. None when that changes nothing.
   */
  function MergeActivity(existing: Activity, imported: Activity): (r: Option<Activity>)
    ensures r.None? <==>
      && existing.name == imported.name
      && existing.intro == imported.intro
      && existing.content == imported.content
      && existing.completionExternally == CleanBool(imported.completionExternally)
      && existing.displayOptions == imported.displayOptions
    ensures r.Some? ==>
      && r.value.id == existing.id && r.value.course == existing.course
      && r.value.settings == existing.settings
      && r.value.name == imported.name && r.value.intro == imported.intro
      && r.value.content == imported.content
      && (r.value.completionExternally == 1 <==> imported.completionExternally != 0)
      && (r.value.completionExternally == 0 <==> imported.completionExternally == 0)
      && r.value.displayOptions == imported.displayOptions
  {
    var merged := existing.(
      name := imported.name,
      intro := imported.intro,
      content := imported.content,
      completionExternally := CleanBool(imported.completionExternally),
      displayOptions := imported.displayOptions);
    if merged != existing then Some(merged) else None
  }

  /** Merging the same import into the activity a merge produced changes nothing. */
  lemma MergeActivityIdempotent(existing: Activity, imported: Activity)
    requires MergeActivity(existing, imported).Some?
    ensures MergeActivity(MergeActivity(existing, imported).value, imported).None?
  {
  }

  // ---------------------------------------------------------------------------
  // completion

  /**
    `update_course_completion_criteria`: makes the module an activity
    completion criterion of the course and saves the four ALL-aggregations,
    unless the criterion is already there, in which case nothing is written.
   */
  function UpdateCompletionCriteria(s: Store, course: nat, cm: nat): (r: Store)
    ensures (course, cm) in s.criteria ==> r == s
    ensures (course, cm) !in s.criteria ==>
      && r.criteria == s.criteria + {(course, cm)}
      && r.aggregations == s.aggregations
           + {(course, Overall), (course, ActivityKind), (course, CourseKind), (course, RoleKind)}
    ensures r == s.(criteria := r.criteria, aggregations := r.aggregations)
  {
    if (course, cm) in s.criteria then s
    else
      s.(criteria := s.criteria + {(course, cm)},
         aggregations := s.aggregations + {(course, Overall), (course, ActivityKind), (course, CourseKind), (course, RoleKind)})
  }

  /**
    Gives the course module of an activity the course id-number and makes it a
    completion criterion. Throws when the activity has no course module, where
    the source assigns a property on `false`.
   */
  function LinkModule(s: Store, instance: nat, idnumber: string, course: nat): (r: Result<Store>)
    ensures r.Thrown? <==> CmByInstance(s, instance).None?
    ensures r.Ok? && Valid(s) ==>
      var cm := CmByInstance(s, instance).value;
      && cm.instance == instance && 1 <= cm.id <= |s.cms|
      && r.value.cms == s.cms[cm.id - 1 := cm.(idnumber := idnumber)]
      && r.value.criteria == s.criteria + {(course, cm.id)}
      && s.aggregations <= r.value.aggregations
      && r.value.categories == s.categories && r.value.courses == s.courses
      && r.value.activities == s.activities && r.value.defaultCategory == s.defaultCategory
  {
    match CmByInstance(s, instance)
    case None => Thrown(EngineError("property assigned on false: no course module for the activity"))
    case Some(cm) =>
      var linked := cm.(idnumber := idnumber);
      assert Valid(s) ==> 1 <= cm.id <= |s.cms| && UpdateCm(s, linked) == s.(cms := s.cms[cm.id - 1 := linked]) by {
        if Valid(s) {
          CmByInstanceValid(s, instance);
          UpdateCmAt(s, linked);
        }
      }
      Ok(UpdateCompletionCriteria(UpdateCm(s, linked), course, cm.id))
  }

  // ---------------------------------------------------------------------------
  // import

  /**
    The thumbnail step: nothing without a thumbnail URL, a skip when thumbnails
    are off, otherwise the download's status, with a warning when it failed.
   */
  function Thumbnail(r: ImportRecord, course: nat, enabled: bool, env: Env): (t: (bool, Option<ThumbnailStatus>))
    ensures r.courseThumbnail == "" ==> t == (false, None)
    ensures r.courseThumbnail != "" && !enabled ==> t == (false, Some(ThumbnailSkipped))
    ensures r.courseThumbnail != "" && enabled ==>
      && t.1 == Some(ThumbnailFetched(env.addThumbnail(course, r.courseThumbnail).status))
      && (t.0 <==> !env.addThumbnail(course, r.courseThumbnail).success)
  {
    if r.courseThumbnail == "" then (false, None)
    else if !enabled then (false, Some(ThumbnailSkipped))
    else
      var response := env.addThumbnail(course, r.courseThumbnail);
      (!response.success, Some(ThumbnailFetched(response.status)))
  }

  /** The result an import starts from. */
  function Initial(r: ImportRecord): ImportResult {
    ImportResult(true, false, r.courseShortname, None, None, None, None, None, None)
  }

  /** A course that does not exist yet: create it, then its activity, then link the module. */
  function ImportNewCourse(s: Store, r: ImportRecord, course: Course, activity: Activity, thumbnail: bool, env: Env)
    : (res: Result<Imported>)
    ensures res.Ok? ==> res.value.result.success && res.value.result.courseShortname == r.courseShortname
  {
    var (created, s1) := CreateCourse(s, course);
    var (warn, thumb) := Thumbnail(r, created.id, thumbnail, env);
    var (act, _, s2) := CreateActivity(s1, activity, created.id);
    match LinkModule(s2, act.id, course.idnumber, created.id)
    case Thrown(f) => Thrown(f)
    case Ok(s3) =>
      Ok(Imported(
        Initial(r).(warn := warn, thumbnailStatus := thumb,
                    courseStatus := Some(CourseCreated(created.visible)),
                    activityStatus := Some(ActivityCreated),
                    courseId := Some(created.id), activityId := Some(act.id)),
        s3))
  }

  /**
    The activity of an existing course: created when the course has no module
    with its id-number, updated when the merge changes it, otherwise left.
    Returns the status, the activity id and the new store.
   */
  function SyncActivity(s: Store, course: Course, merged: Course, activity: Activity)
    : (r: Result<(ActivityStatus, nat, Store)>)
    // no module with the id-number in the course: the activity is created there under the next id, never throwing
    ensures ActivityByIdnumber(s, merged.idnumber, merged.id).None? ==>
      && r.Ok? && r.value.0 == ActivityCreated && r.value.1 == |s.activities| + 1
      && r.value.2.activities == s.activities + [activity.(id := |s.activities| + 1, course := merged.id)]
      && r.value.2.courses == s.courses && r.value.2.categories == s.categories
    // found: nothing is written exactly when the merge changes nothing
    ensures ActivityByIdnumber(s, merged.idnumber, merged.id).Some? ==>
      var existing := ActivityByIdnumber(s, merged.idnumber, merged.id).value;
      MergeActivity(existing, activity).None? <==> r == Ok((ActivityNotUpdated, existing.id, s))
    // found and changed: the merged row replaces the stored one under the existing id
    ensures ActivityByIdnumber(s, merged.idnumber, merged.id).Some? ==>
      var existing := ActivityByIdnumber(s, merged.idnumber, merged.id).value;
      MergeActivity(existing, activity).Some? && r.Ok? ==>
        && r.value.0 == ActivityUpdated && r.value.1 == existing.id
        && MergeActivity(existing, activity).value in r.value.2.activities
        && |r.value.2.activities| == |s.activities|
        && r.value.2.courses == s.courses && r.value.2.categories == s.categories
  {
    match ActivityByIdnumber(s, merged.idnumber, merged.id)
    case None =>
      var (act, cm, s1) := CreateActivity(s, activity, merged.id);
      assert s1.cms[|s.cms|] == cm;
      (match LinkModule(s1, act.id, merged.idnumber, merged.id)
       case Thrown(f) => Thrown(f)
       case Ok(s2) => Ok((ActivityCreated, act.id, s2)))
    case Some(existing) =>
      match MergeActivity(existing, activity)
      case None => Ok((ActivityNotUpdated, existing.id, s))
      case Some(m) =>
        assert m in UpdateActivity(s, m).activities && |UpdateActivity(s, m).activities| == |s.activities| by {
          var j :| 0 <= j < |s.activities| && s.activities[j] == existing;
          UpdateActivityStores(s, m, j);
        }
        match LinkModule(UpdateActivity(s, m), m.id, course.idnumber, merged.id)
        case Thrown(f) => Thrown(f)
        case Ok(s2) => Ok((ActivityUpdated, m.id, s2))
  }

  /**
    A course that exists: merge it (the update is written before the activity
    is touched, which the source's order of writes allows since the activity
    lookup reads no course row), fetch the thumbnail, then sync the activity.
   */
  function ImportExistingCourse(s: Store, r: ImportRecord, course: Course, existing: Course,
                                activity: Activity, thumbnail: bool, env: Env): (res: Result<Imported>)
    ensures res.Ok? ==> res.value.result.success && res.value.result.courseShortname == r.courseShortname
  {
    var merge := MergeCourse(existing, course, env.formatText);
    var merged := MergedCourse(existing, course, env.formatText);
    var (warn, thumb) := Thumbnail(r, merged.id, thumbnail, env);
    var s1 := if merge.Some? then UpdateCourse(s, merged) else s;
    match SyncActivity(s1, course, merged, activity)
    case Thrown(f) => Thrown(f)
    case Ok((status, activityId, s2)) =>
      Ok(Imported(
        Initial(r).(warn := warn, thumbnailStatus := thumb,
                    courseStatus := Some(if merge.Some? then CourseUpdated(merged.visible) else CourseNotUpdated),
                    activityStatus := Some(status),
                    courseId := Some(existing.id), activityId := Some(activityId)),
        s2))
  }

  /** The import of a record: rejected when invalid, else the course is created or merged. */
  function ApplyRecord(s: Store, r: ImportRecord, thumbnail: bool, env: Env): (res: Result<Imported>)
    ensures !ValidRecord(r) ==>
      res == Ok(Imported(Initial(r).(success := false, error := Some(InvalidImportRecord)), s))
    ensures res.Ok? ==> res.value.result.courseShortname == r.courseShortname
    ensures res.Ok? ==> (res.value.result.success <==> ValidRecord(r))
  {
    if !ValidRecord(r) then
      Ok(Imported(Initial(r).(success := false, error := Some(InvalidImportRecord)), s))
    else
      var (course, s1) := CourseFromImported(s, r, env.now);
      var activity := ActivityFromImported(r);
      match CourseByIdnumber(s1, course.idnumber)
      case None => ImportNewCourse(s1, r, course, activity, thumbnail, env)
      case Some(existing) => ImportExistingCourse(s1, r, course, existing, activity, thumbnail, env)
  }

  /** `import_percio_asset`. */
  function ImportAsset(s: Store, a: Asset, parent: CategoryRef, thumbnail: bool, env: Env): (r: Result<Imported>)
    ensures ResolveParent(s, parent).Thrown? ==> r.Thrown?
    ensures r.Ok? ==> r.value.result.courseShortname == Substr(Title(a), 215) + " (" + a.id + ")"
    ensures r.Ok? && !r.value.result.success ==>
      && r.value.store == s
      && r.value.result.error == Some(InvalidImportRecord)
      && r.value.result.courseStatus.None? && r.value.result.activityStatus.None?
      && r.value.result.courseId.None? && r.value.result.activityId.None?
  {
    match AssetToImport(s, a, parent, env.presentation)
    case Thrown(f) => Thrown(f)
    case Ok(record) => ApplyRecord(s, record, thumbnail, env)
  }
}

=== FILE: sorting.dfy ===
/**
  PHP's `sort()` on an array of strings, as the course merge applies it to tag
  lists. Strings are ordered character by character (strcmp order); the
  numeric-string comparisons PHP applies to strings such as "10" and "9" are
  not modelled.
 */
module StringSort {

  /** strcmp order: a is at most b. */
  predicate LexLe(a: string, b: string)
    decreases |a|
  {
    |a| == 0 || (|b| > 0 && (a[0] < b[0] || (a[0] == b[0] && LexLe(a[1..], b[1..]))))
  }

  lemma LexLeTotal(a: string, b: string)
    ensures LexLe(a, b) || LexLe(b, a)
    decreases |a|
  {
    if |a| > 0 && |b| > 0 && a[0] == b[0] {
      LexLeTotal(a[1..], b[1..]);
    }
  }

  lemma LexLeReflexive(a: string)
    ensures LexLe(a, a)
    decreases |a|
  {
    if |a| > 0 {
      LexLeReflexive(a[1..]);
    }
  }

  lemma LexLeAntisymmetric(a: string, b: string)
    requires LexLe(a, b) && LexLe(b, a)
    ensures a == b
    decreases |a|
  {
    if |a| > 0 {
      LexLeAntisymmetric(a[1..], b[1..]);
      assert a == [a[0]] + a[1..] && b == [b[0]] + b[1..];
    }
  }

  lemma LexLeTransitive(a: string, b: string, c: string)
    requires LexLe(a, b) && LexLe(b, c)
    ensures LexLe(a, c)
    decreases |a|
  {
    if |a| > 0 && a[0] == b[0] && b[0] == c[0] {
      LexLeTransitive(a[1..], b[1..], c[1..]);
    }
  }

  predicate Sorted(xs: seq<string>) {
    forall i, j :: 0 <= i < j < |xs| ==> LexLe(xs[i], xs[j])
  }

  /** Inserts x before the first element it is at most. */
  function Insert(x: string, xs: seq<string>): (r: seq<string>)
    requires Sorted(xs)
    ensures Sorted(r)
    ensures multiset(r) == multiset(xs) + multiset{x}
  {
    if xs == [] then [x]
    else if LexLe(x, xs[0]) then
      assert forall j :: 0 < j < |xs| ==> LexLe(x, xs[j]) by {
        forall j | 0 < j < |xs| {
          LexLeTransitive(x, xs[0], xs[j]);
        }
      }
      [x] + xs
    else
      LexLeTotal(x, xs[0]);
      var rest := Insert(x, xs[1..]);
      assert xs == [xs[0]] + xs[1..];
      BoundedBy(xs[0], rest, x, xs[1..]);
      [xs[0]] + rest
  }

  /** A lower bound of x and of every element of tail bounds every element of a permutation of both. */
  lemma BoundedBy(h: string, rest: seq<string>, x: string, tail: seq<string>)
    requires multiset(rest) == multiset(tail) + multiset{x}
    requires LexLe(h, x)
    requires forall j :: 0 <= j < |tail| ==> LexLe(h, tail[j])
    ensures forall j :: 0 <= j < |rest| ==> LexLe(h, rest[j])
  {
    forall j | 0 <= j < |rest|
      ensures LexLe(h, rest[j])
    {
      assert rest[j] in multiset(rest);
      if rest[j] != x {
        assert rest[j] in multiset(tail);
        var k :| 0 <= k < |tail| && tail[k] == rest[j];
      }
    }
  }

  /** `sort($xs)`: an ordered permutation of xs. */
  function Sort(xs: seq<string>): (r: seq<string>)
    ensures Sorted(r)
    ensures multiset(r) == multiset(xs)
  {
    if xs == [] then []
    else
      assert xs == [xs[0]] + xs[1..];
      Insert(xs[0], Sort(xs[1..]))
  }

  /** Two ordered sequences holding the same elements start with the same element. */
  lemma SortedSameHead(a: seq<string>, b: seq<string>)
    requires Sorted(a) && Sorted(b)
    requires multiset(a) == multiset(b) && |a| > 0
    ensures |b| > 0 && a[0] == b[0]
  {
    assert a[0] in multiset(b);
    var i :| 0 <= i < |b| && b[i] == a[0];
    assert b[0] in multiset(a);
    var j :| 0 <= j < |a| && a[j] == b[0];
    LexLeReflexive(a[0]);
    assert LexLe(b[0], a[0]) by {
      if i > 0 {
        assert LexLe(b[0], b[i]);
      }
    }
    assert LexLe(a[0], b[0]) by {
      if j > 0 {
        assert LexLe(a[0], a[j]);
      }
    }
    LexLeAntisymmetric(a[0], b[0]);
  }

  /** The elements of a non-empty sequence's tail are its elements less its head. */
  lemma TailMultiset(a: seq<string>)
    requires |a| > 0
    ensures multiset(a[1..]) == multiset(a) - multiset{a[0]}
  {
    assert a == [a[0]] + a[1..];
  }

  /** Two ordered sequences holding the same elements are equal. */
  lemma {:induction false} SortedUnique(a: seq<string>, b: seq<string>)
    requires Sorted(a) && Sorted(b)
    requires multiset(a) == multiset(b)
    ensures a == b
    decreases |a|
  {
    if |a| == 0 {
      assert |multiset(b)| == 0;
    } else {
      SortedSameHead(a, b);
      TailMultiset(a);
      TailMultiset(b);
      SortedUnique(a[1..], b[1..]);
      assert a == [a[0]] + a[1..] && b == [b[0]] + b[1..];
    }
  }

  /** Sorting is insensitive to the order of its input. */
  lemma SortPermutationInvariant(xs: seq<string>, ys: seq<string>)
    requires multiset(xs) == multiset(ys)
    ensures Sort(xs) == Sort(ys)
  {
    SortedUnique(Sort(xs), Sort(ys));
  }

  /** Two sequences sort to the same result exactly when they hold the same elements. */
  lemma SortEqualIff(xs: seq<string>, ys: seq<string>)
    ensures Sort(xs) == Sort(ys) <==> multiset(xs) == multiset(ys)
  {
    if multiset(xs) == multiset(ys) {
      SortPermutationInvariant(xs, ys);
    }
  }

  /** Sorting a sorted sequence changes nothing. */
  lemma SortIdempotent(xs: seq<string>)
    ensures Sort(Sort(xs)) == Sort(xs)
  {
    SortedUnique(Sort(Sort(xs)), Sort(xs));
  }
}

=== FILE: store.dfy ===
/**
  The slice of the Moodle database the sync touches, as plain sequences:
  course categories, courses, External Content activity instances, their
  course modules, and the completion criteria and aggregation records. A
  record's id is its position plus one, so a create appends and returns the
  next id. Lookups by id-number return the first matching row, as
  `get_record` and `get_field_select` do.
 */
module Store {
  import opened Php

  /** The category value a course carries: an id, PHP null, or the `false` a failed lookup returns. */
  datatype CategoryField = CategoryId(id: nat) | NoCategory | LookupFalse

  datatype Category = Category(id: nat, parent: Option<nat>, name: string, idnumber: string)

  /** A course; `settings` holds every column the sync never merges (format, startdate, ...). */
  datatype Course = Course(
    id: nat,
    idnumber: string,
    shortname: string,
    fullname: string,
    summary: string,
    visible: int,
    tags: seq<string>,
    category: CategoryField,
    settings: map<string, Value>)

  /** The keys of the `displayoptions` array: `printheading`, `printintro`, `printlastmodified`. */
  datatype OptionKey = PrintHeading | PrintIntro | PrintLastModified

  /** One entry of the serialized `displayoptions` array, in insertion order. */
  datatype DisplayOption = DisplayOption(key: OptionKey, value: Value)

  /** An External Content activity instance; `settings` holds the columns the sync never merges. */
  datatype Activity = Activity(
    id: nat,
    course: nat,
    name: string,
    intro: string,
    content: string,
    completionExternally: int,
    displayOptions: seq<DisplayOption>,
    settings: map<string, Value>)

  datatype CourseModule = CourseModule(id: nat, course: nat, instance: nat, idnumber: string)

  /** The criteria types an aggregation record is saved for (the null type is the overall one). */
  datatype AggregationKind = Overall | ActivityKind | CourseKind | RoleKind

  datatype Store = Store(
    defaultCategory: nat,
    categories: seq<Category>,
    courses: seq<Course>,
    activities: seq<Activity>,
    cms: seq<CourseModule>,
    /** Activity completion criteria as (course id, course-module id). */
    criteria: set<(nat, nat)>,
    /** Aggregation records with method ALL, as (course id, criteria type). */
    aggregations: set<(nat, AggregationKind)>)

  /**
    Ids are positions plus one; every activity belongs to an existing course;
    every course module points at an existing activity of the same course, and
    no two modules share an activity.
   */
  predicate Valid(s: Store) {
    && (forall i :: 0 <= i < |s.categories| ==> s.categories[i].id == i + 1)
    && (forall i :: 0 <= i < |s.courses| ==> s.courses[i].id == i + 1)
    && (forall i :: 0 <= i < |s.activities| ==>
          s.activities[i].id == i + 1 && 1 <= s.activities[i].course <= |s.courses|)
    && (forall i :: 0 <= i < |s.cms| ==>
          && s.cms[i].id == i + 1
          && 1 <= s.cms[i].instance <= |s.activities|
          && s.activities[s.cms[i].instance - 1].course == s.cms[i].course)
    && (forall i, j :: 0 <= i < j < |s.cms| ==> s.cms[i].instance != s.cms[j].instance)
  }

  /** The position of the first element satisfying p. */
  function FirstIndex<T>(xs: seq<T>, p: T -> bool): (r: Option<nat>)
    ensures r.Some? ==> r.value < |xs| && p(xs[r.value])
    ensures r.Some? ==> forall j :: 0 <= j < r.value ==> !p(xs[j])
    ensures r.None? ==> forall j :: 0 <= j < |xs| ==> !p(xs[j])
  {
    if |xs| == 0 then None
    else if p(xs[0]) then Some(0)
    else
      match FirstIndex(xs[1..], p)
      case None => None
      case Some(k) => Some(k + 1)
  }

  // ---------------------------------------------------------------------------
  // lookups

  /** `get_field_select('course_categories', 'id', idnumber = ?)`. */
  function CategoryIdByIdnumber(s: Store, idnumber: string): Option<nat> {
    match FirstIndex(s.categories, (c: Category) => c.idnumber == idnumber)
    case None => None
    case Some(i) => Some(s.categories[i].id)
  }

  /** `record_exists('course_categories', id = ?)`. */
  predicate CategoryExists(s: Store, id: nat) {
    FirstIndex(s.categories, (c: Category) => c.id == id).Some?
  }

  /** `get_record('course', idnumber = ?)`. */
  function CourseByIdnumber(s: Store, idnumber: string): Option<Course> {
    match FirstIndex(s.courses, (c: Course) => c.idnumber == idnumber)
    case None => None
    case Some(i) => Some(s.courses[i])
  }

  /** `get_externalcontent_by_idnumber`: the module row by id-number within a course, then its instance. */
  function ActivityByIdnumber(s: Store, idnumber: string, course: nat): Option<Activity> {
    match FirstIndex(s.cms, (m: CourseModule) => m.idnumber == idnumber && m.course == course)
    case None => None
    case Some(i) =>
      match FirstIndex(s.activities, (a: Activity) => a.id == s.cms[i].instance && a.course == course)
      case None => None
      case Some(j) => Some(s.activities[j])
  }

  /** `get_coursemodule_from_instance('externalcontent', instance)`. */
  function CmByInstance(s: Store, instance: nat): Option<CourseModule> {
    match FirstIndex(s.cms, (m: CourseModule) => m.instance == instance)
    case None => None
    case Some(i) => Some(s.cms[i])
  }

  // ---------------------------------------------------------------------------
  // writes

  /** Creates a category and returns its id. */
  function CreateCategory(s: Store, parent: Option<nat>, name: string, idnumber: string): (nat, Store) {
    var id := |s.categories| + 1;
    (id, s.(categories := s.categories + [Category(id, parent, name, idnumber)]))
  }

  /** `create_course`: stores the course under the next id and returns it. */
  function CreateCourse(s: Store, c: Course): (Course, Store) {
    var created := c.(id := |s.courses| + 1);
    (created, s.(courses := s.courses + [created]))
  }

  /** `update_course`: overwrites the row with the course's id. */
  function UpdateCourse(s: Store, c: Course): Store {
    match FirstIndex(s.courses, (x: Course) => x.id == c.id)
    case None => s
    case Some(i) => s.(courses := s.courses[i := c])
  }

  /** `create_module`: stores the activity in a course and adds its course module (no id-number yet). */
  function CreateActivity(s: Store, a: Activity, course: nat): (Activity, CourseModule, Store) {
    var created := a.(id := |s.activities| + 1, course := course);
    var cm := CourseModule(|s.cms| + 1, course, created.id, "");
    (created, cm, s.(activities := s.activities + [created], cms := s.cms + [cm]))
  }

  /** `update_record('externalcontent', a)`: overwrites the row with the activity's id. */
  function UpdateActivity(s: Store, a: Activity): Store {
    match FirstIndex(s.activities, (x: Activity) => x.id == a.id)
    case None => s
    case Some(i) => s.(activities := s.activities[i := a])
  }

  /** `update_record('course_modules', cm)`: overwrites the row with the module's id. */
  function UpdateCm(s: Store, cm: CourseModule): Store {
    match FirstIndex(s.cms, (x: CourseModule) => x.id == cm.id)
    case None => s
    case Some(i) => s.(cms := s.cms[i := cm])
  }

  // ---------------------------------------------------------------------------
  // writes on a valid store

  /** On a valid store a course update overwrites the row at the course's id. */
  lemma UpdateCourseAt(s: Store, c: Course)
    requires Valid(s) && 1 <= c.id <= |s.courses|
    ensures UpdateCourse(s, c) == s.(courses := s.courses[c.id - 1 := c])
  {
    assert s.courses[c.id - 1].id == c.id;
  }

  /** On a valid store an activity update overwrites the row at the activity's id. */
  lemma UpdateActivityAt(s: Store, a: Activity)
    requires Valid(s) && 1 <= a.id <= |s.activities|
    ensures UpdateActivity(s, a) == s.(activities := s.activities[a.id - 1 := a])
  {
    assert s.activities[a.id - 1].id == a.id;
  }

  /** An activity update whose id is stored keeps the number of rows and stores the new row. */
  lemma UpdateActivityStores(s: Store, a: Activity, j: nat)
    requires j < |s.activities| && s.activities[j].id == a.id
    ensures a in UpdateActivity(s, a).activities
    ensures |UpdateActivity(s, a).activities| == |s.activities|
  {
    match FirstIndex(s.activities, (x: Activity) => x.id == a.id)
    case None =>
      assert false;
    case Some(i) =>
      assert UpdateActivity(s, a).activities[i] == a;
  }

  /** On a valid store a module update overwrites the row at the module's id. */
  lemma UpdateCmAt(s: Store, cm: CourseModule)
    requires Valid(s) && 1 <= cm.id <= |s.cms|
    ensures UpdateCm(s, cm) == s.(cms := s.cms[cm.id - 1 := cm])
  {
    assert s.cms[cm.id - 1].id == cm.id;
  }

  /** On a valid store the module of an activity is the only one pointing at it. */
  lemma CmByInstanceAt(s: Store, i: nat)
    requires Valid(s) && i < |s.cms|
    ensures CmByInstance(s, s.cms[i].instance) == Some(s.cms[i])
  {
    var k := FirstIndex(s.cms, (m: CourseModule) => m.instance == s.cms[i].instance);
    assert k == Some(i);
  }

  /** On a valid store the module found for an instance sits at its id and points at that instance. */
  lemma CmByInstanceValid(s: Store, instance: nat)
    requires Valid(s) && CmByInstance(s, instance).Some?
    ensures var cm := CmByInstance(s, instance).value;
            && cm.instance == instance && 1 <= cm.id <= |s.cms| && s.cms[cm.id - 1] == cm
  {
    var k := FirstIndex(s.cms, (m: CourseModule) => m.instance == instance);
    assert s.cms[k.value].id == k.value + 1;
  }

  /** On a valid store the id-number lookup follows the first matching module to its activity. */
  lemma ActivityByIdnumberAt(s: Store, idnumber: string, course: nat, i: nat)
    requires Valid(s) && i < |s.cms|
    requires s.cms[i].idnumber == idnumber && s.cms[i].course == course
    requires forall j :: 0 <= j < i ==> !(s.cms[j].idnumber == idnumber && s.cms[j].course == course)
    ensures ActivityByIdnumber(s, idnumber, course) == Some(s.activities[s.cms[i].instance - 1])
  {
    var k := FirstIndex(s.cms, (m: CourseModule) => m.idnumber == idnumber && m.course == course);
    assert k == Some(i);
    var a := s.cms[i].instance - 1;
    var l := FirstIndex(s.activities, (x: Activity) => x.id == s.cms[i].instance && x.course == course);
    assert l == Some(a);
  }

  /** Overwriting a course with one of the same id keeps the store valid. */
  lemma UpdateCourseValid(s: Store, c: Course)
    requires Valid(s) && 1 <= c.id <= |s.courses|
    ensures Valid(UpdateCourse(s, c))
  {
    UpdateCourseAt(s, c);
  }

  /** Appending a course keeps the store valid. */
  lemma CreateCourseValid(s: Store, c: Course)
    requires Valid(s)
    ensures Valid(CreateCourse(s, c).1)
  {
  }

  /** Creating an activity in an existing course keeps the store valid. */
  lemma CreateActivityValid(s: Store, a: Activity, course: nat)
    requires Valid(s) && 1 <= course <= |s.courses|
    ensures Valid(CreateActivity(s, a, course).2)
  {
    var t := CreateActivity(s, a, course).2;
    assert forall i :: 0 <= i < |s.cms| ==> t.activities[t.cms[i].instance - 1] == s.activities[s.cms[i].instance - 1];
  }

  /** Validity speaks only of the four tables: a store sharing them with a valid one is valid. */
  lemma SameTablesValid(s: Store, t: Store)
    requires Valid(s)
    requires t.categories == s.categories && t.courses == s.courses
    requires t.activities == s.activities && t.cms == s.cms
    ensures Valid(t)
  {
  }

  /** Overwriting an activity without moving it to another course keeps the store valid. */
  lemma UpdateActivityValid(s: Store, a: Activity)
    requires Valid(s) && 1 <= a.id <= |s.activities|
    requires a.course == s.activities[a.id - 1].course
    ensures Valid(UpdateActivity(s, a))
  {
    UpdateActivityAt(s, a);
  }

  /** Renaming a module's id-number keeps the store valid. */
  lemma UpdateCmValid(s: Store, cm: CourseModule, idnumber: string)
    requires Valid(s) && cm in s.cms
    ensures Valid(UpdateCm(s, cm.(idnumber := idnumber)))
  {
    UpdateCmAt(s, cm.(idnumber := idnumber));
  }
}

=== FILE: sync.dfy ===
/**
  The scheduled task: `get_all_metadata` pages through the catalog, imports
  every asset of every page in order and counts successes and failures;
  `execute` checks the settings, runs it, and on success moves the
  `updatedsince` watermark to the time the run started, so the next run asks
  only for what changed since.
 */
module Sync {
  import opened Php
  import opened Store
  import opened Categories
  import opened Mapper
  import opened Reconciler
  import opened Paging
  import opened ApiClient
  import Convergence

  // ---------------------------------------------------------------------------
  // importing a page

  /** The store and counters after importing assets; `failure` is the exception that ended the batch, if any. */
  datatype Batch = Batch(store: Store, success: nat, failed: nat, failure: Option<Failure>)

  /** The import the loop runs on each asset, given the store it writes to. */
  type Importer = (Store, Asset) -> Result<Imported>

  /** `helper::import_percio_asset` with the task's parent category, thumbnail flag and collaborators. */
  function AssetImporter(parent: CategoryRef, thumbnail: bool, env: Env): Importer {
    (s: Store, a: Asset) => ImportAsset(s, a, parent, thumbnail, env)
  }

  /** One asset: a success or a failure is counted, a throw ends the batch. */
  function ImportStep(b: Batch, a: Asset, importer: Importer): (r: Batch)
    requires b.failure.None?
    ensures r.failure.None? ==> r.success + r.failed == b.success + b.failed + 1
    ensures r.failure.Some? ==> r == b.(failure := r.failure)
    ensures importer(b.store, a).Ok? <==> r.failure.None?
    ensures importer(b.store, a).Thrown? ==> r.failure == Some(importer(b.store, a).failure)
    ensures importer(b.store, a).Ok? ==>
      var imp := importer(b.store, a).value;
      && r.store == imp.store
      && (r.success, r.failed) == (if imp.result.success then (b.success + 1, b.failed) else (b.success, b.failed + 1))
  {
    match importer(b.store, a)
    case Thrown(f) => b.(failure := Some(f))
    case Ok(imp) =>
      if imp.result.success then b.(store := imp.store, success := b.success + 1)
      else b.(store := imp.store, failed := b.failed + 1)
  }

  /** The `foreach` over a page's assets, continuing from a batch; nothing happens once it has failed. */
  function ImportFrom(b: Batch, xs: seq<Asset>, importer: Importer): (r: Batch)
    ensures b.failure.Some? ==> r == b
    ensures r.success >= b.success && r.failed >= b.failed
    ensures b.failure.None? && r.failure.None? ==> r.success + r.failed == b.success + b.failed + |xs|
    ensures b.failure.None? && r.failure.Some? ==> r.success + r.failed < b.success + b.failed + |xs|
    decreases |xs|
  {
    if b.failure.Some? || |xs| == 0 then b
    else ImportFrom(ImportStep(b, xs[0], importer), xs[1..], importer)
  }

  /** Importing two runs of assets one after the other is importing their concatenation. */
  lemma {:induction false} ImportFromAppend(b: Batch, xs: seq<Asset>, ys: seq<Asset>, importer: Importer)
    ensures ImportFrom(b, xs + ys, importer) == ImportFrom(ImportFrom(b, xs, importer), ys, importer)
    decreases |xs|
  {
    if |xs| == 0 {
      assert xs + ys == ys;
    } else if b.failure.None? {
      assert (xs + ys)[1..] == xs[1..] + ys;
      ImportFromAppend(ImportStep(b, xs[0], importer), xs[1..], ys, importer);
    }
  }

  /** A store the sync can keep working on: consistent, and the parent category resolves. */
  predicate Workable(s: Store, parent: CategoryRef) {
    Valid(s) && ResolveParent(s, parent).Ok?
  }

  /** An import that, on a workable store, never throws, keeps it workable and keeps its default category. */
  ghost predicate SafeImporter(importer: Importer, parent: CategoryRef) {
    forall s: Store, a: Asset :: Workable(s, parent) ==>
      && importer(s, a).Ok?
      && Workable(importer(s, a).value.store, parent)
      && importer(s, a).value.store.defaultCategory == s.defaultCategory
  }

  /** A parent that resolves keeps resolving once categories are only appended. */
  lemma ParentStillResolves(s: Store, t: Store, parent: CategoryRef)
    requires ResolveParent(s, parent).Ok?
    requires s.categories <= t.categories && t.defaultCategory == s.defaultCategory
    ensures ResolveParent(t, parent).Ok?
  {
    var extra := t.categories[|s.categories|..];
    assert t.categories == s.categories + extra;
    ResolveParentStable(s, extra, parent);
    ResolveParentFrame(s.(categories := s.categories + extra), t, parent);
  }

  /**
    `import_percio_asset` is safe: on a workable store it does not throw, and
    since it only appends categories the parent still resolves afterwards.
   */
  lemma AssetImporterSafe(parent: CategoryRef, thumbnail: bool, env: Env)
    ensures SafeImporter(AssetImporter(parent, thumbnail, env), parent)
  {
    forall s: Store, a: Asset | Workable(s, parent)
      ensures ImportAsset(s, a, parent, thumbnail, env).Ok?
      ensures Workable(ImportAsset(s, a, parent, thumbnail, env).value.store, parent)
      ensures ImportAsset(s, a, parent, thumbnail, env).value.store.defaultCategory == s.defaultCategory
    {
      Convergence.ImportAssetSafe(s, a, parent, thumbnail, env);
      ParentStillResolves(s, ImportAsset(s, a, parent, thumbnail, env).value.store, parent);
    }
  }

  /** With a safe import on a workable store no asset throws, and the store stays workable. */
  lemma {:induction false} ImportFromSafe(b: Batch, xs: seq<Asset>, importer: Importer, parent: CategoryRef)
    requires b.failure.None? && Workable(b.store, parent) && SafeImporter(importer, parent)
    ensures ImportFrom(b, xs, importer).failure.None?
    ensures Workable(ImportFrom(b, xs, importer).store, parent)
    ensures ImportFrom(b, xs, importer).store.defaultCategory == b.store.defaultCategory
    decreases |xs|
  {
    if |xs| > 0 {
      assert importer(b.store, xs[0]).Ok?;
      ImportFromSafe(ImportStep(b, xs[0], importer), xs[1..], importer, parent);
    }
  }

  // ---------------------------------------------------------------------------
  // the paging loop of the task

  /** The counters `get_all_metadata` reports. */
  datatype Counters = Counters(downloaded: int, success: nat, failed: nat)

  /** How `get_all_metadata` ended. */
  datatype SyncOutcome =
    | Finished                  // the announced total was reached; the function returns true
    | Aborted(failure: Failure) // a call, a count or an import threw
    | Unanswered                // the scripted server had nothing more to say

  datatype SyncRun = SyncRun(outcome: SyncOutcome, store: Store, counters: Counters, requests: seq<Request>)

  const CountError: string := "count(): Argument #1 must be of type Countable|array"

  /**
    The data `get_all_metadata` starts from: offset 0, the page size when
    non-empty and 1000 otherwise, the start date and the paging id when
    non-empty and null otherwise.
   */
  function MetadataCursor(updatedSince: Option<string>, max: int, pagingRequestId: Option<string>): (c: Cursor)
    ensures c == Defaults(Query(None, Some(max), pagingRequestId, updatedSince))
    ensures c.offset == 0
  {
    Cursor(0, if max != 0 then max else DefaultMax, NonEmpty(pagingRequestId), NonEmpty(updatedSince))
  }

  /** What one reply means to the task's loop: a failure, or a page of assets with its headers. */
  datatype Page = PageFailed(failure: Failure) | PageOf(assets: seq<Asset>, headers: Headers)

  /**
    One `get_catalog_content` call as the task reads it: an exception from
    the call, or the data, which `count()` accepts only when it is a list.
   */
  function ReadPage(c: Client, cur: Cursor, reply: Reply): (p: Page)
    ensures p.PageOf? <==> reply.errno == 0 && reply.status < 400 && !reply.decoded.JsonObject?
    ensures p.PageOf? ==> p.assets == PageAssets(reply.decoded) && p.headers == reply.headers
    ensures p.PageFailed? ==> (p.failure.IsException() <==> reply.errno != 0 || reply.status >= 400)
  {
    var call := GetCatalogContent(c, AsQuery(cur), reply);
    match call.result
    case Thrown(f) => PageFailed(f)
    case Ok(res) =>
      match res.data
      case AssetList(xs) => PageOf(xs, res.headers)
      case _ => PageFailed(EngineError(CountError))
  }

  /** Where the loop stands after a page: stopped with an outcome, or going on from a new cursor. */
  datatype Step =
    | Stop(outcome: SyncOutcome, store: Store, counters: Counters)
    | Continue(cursor: Cursor, store: Store, counters: Counters)

  /**
    The body of the loop for one page: count the page, import its assets,
    and go on from the advanced cursor while fewer assets have been
    downloaded than the page announces.
   */
  function PageStep(cur: Cursor, n: Counters, s: Store, importer: Importer, page: Page): (st: Step)
    ensures page.PageFailed? ==> st == Stop(Aborted(page.failure), s, n)
    ensures page.PageOf? ==> st.counters.downloaded == n.downloaded + |page.assets|
    ensures page.PageOf? && !(st.Stop? && st.outcome.Aborted?) ==>
      st.counters.success + st.counters.failed == n.success + n.failed + |page.assets|
    ensures st.Continue? ==>
      page.PageOf? && st.cursor == Advance(cur, page.headers) && st.counters.downloaded < TotalCount(page.headers)
    ensures st.Stop? && st.outcome.Finished? ==> page.PageOf? && st.counters.downloaded >= TotalCount(page.headers)
    ensures st.Stop? ==> !st.outcome.Unanswered?
  {
    match page
    case PageFailed(f) => Stop(Aborted(f), s, n)
    case PageOf(xs, h) =>
      var b := ImportFrom(Batch(s, n.success, n.failed, None), xs, importer);
      var counted := Counters(n.downloaded + |xs|, b.success, b.failed);
      if b.failure.Some? then Stop(Aborted(b.failure.value), b.store, counted)
      else if counted.downloaded < TotalCount(h) then Continue(Advance(cur, h), b.store, counted)
      else Stop(Finished, b.store, counted)
  }

  /**
    The reference definition of `get_all_metadata`'s loop from a cursor,
    counters and store: one page at a time until a page stops it.
   */
  function MetadataFrom(c: Client, cur: Cursor, n: Counters, s: Store, importer: Importer,
                        replies: seq<Reply>): SyncRun
    decreases |replies|
  {
    if |replies| == 0 then SyncRun(Unanswered, s, n, [])
    else
      var rest :=
        match PageStep(cur, n, s, importer, ReadPage(c, cur, replies[0]))
        case Stop(o, t, m) => SyncRun(o, t, m, [])
        case Continue(next, t, m) => MetadataFrom(c, next, m, t, importer, replies[1..]);
      SyncRun(rest.outcome, rest.store, rest.counters, [CatalogRequest(c, AsQuery(cur))] + rest.requests)
  }

  /**
    Every downloaded asset is counted once: a run that started with balanced
    counters and did not abort has counted as many successes and failures as
    it downloaded, and it downloaded exactly the assets of the pages it asked
    for.
   */
  lemma {:induction false} MetadataCounts(c: Client, cur: Cursor, n: Counters, s: Store, importer: Importer,
                                          replies: seq<Reply>)
    requires n.success + n.failed == n.downloaded
    ensures var run := MetadataFrom(c, cur, n, s, importer, replies);
      && |run.requests| <= |replies|
      && (!run.outcome.Aborted? ==>
            && run.counters.success + run.counters.failed == run.counters.downloaded
            && run.counters.downloaded == n.downloaded + |AssetsOf(replies[..|run.requests|])|)
    decreases |replies|
  {
    MetadataRequestCount(c, cur, n, s, importer, replies);
    if |replies| == 0 {
      assert replies[..0] == [];
    } else {
      var page := ReadPage(c, cur, replies[0]);
      var st := PageStep(cur, n, s, importer, page);
      MetadataStep(c, cur, n, s, importer, replies);
      if st.Continue? {
        MetadataCounts(c, st.cursor, st.counters, st.store, importer, replies[1..]);
        var k := |MetadataFrom(c, st.cursor, st.counters, st.store, importer, replies[1..]).requests|;
        AssetsOfPrefix(replies, k);
      } else if page.PageOf? {
        AssetsOfPrefix(replies, 0);
        assert AssetsOf(replies[1..][..0]) == [];
      }
    }
  }

  /** Every page of the loop answers one request. */
  lemma {:induction false} MetadataRequestCount(c: Client, cur: Cursor, n: Counters, s: Store, importer: Importer,
                                                replies: seq<Reply>)
    ensures |MetadataFrom(c, cur, n, s, importer, replies).requests| <= |replies|
    decreases |replies|
  {
    if |replies| > 0 {
      var st := PageStep(cur, n, s, importer, ReadPage(c, cur, replies[0]));
      if st.Continue? {
        MetadataRequestCount(c, st.cursor, st.counters, st.store, importer, replies[1..]);
      }
    }
  }


  /** A finished run has downloaded at least as many assets as its last page announced. */
  lemma {:induction false} MetadataFinishedReachesTotal(c: Client, cur: Cursor, n: Counters, s: Store,
                                                        importer: Importer, replies: seq<Reply>)
    ensures var run := MetadataFrom(c, cur, n, s, importer, replies);
      run.outcome.Finished? ==>
        && 1 <= |run.requests| <= |replies|
        && run.counters.downloaded >= TotalCount(replies[|run.requests| - 1].headers)
    decreases |replies|
  {
    if |replies| > 0 {
      var st := PageStep(cur, n, s, importer, ReadPage(c, cur, replies[0]));
      MetadataStep(c, cur, n, s, importer, replies);
      if st.Continue? {
        MetadataFinishedReachesTotal(c, st.cursor, st.counters, st.store, importer, replies[1..]);
        var rest := MetadataFrom(c, st.cursor, st.counters, st.store, importer, replies[1..]);
        if rest.outcome.Finished? {
          assert replies[1..][|rest.requests| - 1] == replies[|rest.requests|];
        }
      }
    }
  }

  /** With a safe import, a page leaves a workable store workable and aborts only when the page failed. */
  lemma PageStepSafe(cur: Cursor, n: Counters, s: Store, importer: Importer, parent: CategoryRef, page: Page)
    requires Workable(s, parent) && SafeImporter(importer, parent)
    ensures var st := PageStep(cur, n, s, importer, page);
      && Workable(st.store, parent)
      && st.store.defaultCategory == s.defaultCategory
      && (st.Stop? && st.outcome.Aborted? ==> page.PageFailed?)
  {
    if page.PageOf? {
      ImportFromSafe(Batch(s, n.success, n.failed, None), page.assets, importer, parent);
    }
  }

  /**
    What a run on a workable store with a safe import guarantees: the store
    stays workable, and the run aborts only on the last page it asked for,
    with an exception when the server refused it (a curl error or an HTTP
    status of 400 or more) and with PHP's count error when its body was a
    JSON object.
   */
  predicate SafeRun(run: SyncRun, parent: CategoryRef, replies: seq<Reply>) {
    && Workable(run.store, parent)
    && (run.outcome.Aborted? ==>
          && 1 <= |run.requests| <= |replies|
          && var last := replies[|run.requests| - 1];
             && (last.errno != 0 || last.status >= 400 || last.decoded.JsonObject?)
             && (run.outcome.failure.IsException() <==> last.errno != 0 || last.status >= 400))
  }

  /** On a workable store with a safe import every run is safe and keeps the default category. */
  lemma {:induction false} MetadataSafe(c: Client, cur: Cursor, n: Counters, s: Store, importer: Importer,
                                        parent: CategoryRef, replies: seq<Reply>)
    requires Workable(s, parent) && SafeImporter(importer, parent)
    ensures SafeRun(MetadataFrom(c, cur, n, s, importer, replies), parent, replies)
    ensures MetadataFrom(c, cur, n, s, importer, replies).store.defaultCategory == s.defaultCategory
    decreases |replies|
  {
    if |replies| > 0 {
      var page := ReadPage(c, cur, replies[0]);
      var st := PageStep(cur, n, s, importer, page);
      PageStepSafe(cur, n, s, importer, parent, page);
      MetadataStep(c, cur, n, s, importer, replies);
      var run := MetadataFrom(c, cur, n, s, importer, replies);
      if st.Continue? {
        MetadataSafe(c, st.cursor, st.counters, st.store, importer, parent, replies[1..]);
        var rest := MetadataFrom(c, st.cursor, st.counters, st.store, importer, replies[1..]);
        assert run.store == rest.store && run.outcome == rest.outcome && |run.requests| == 1 + |rest.requests|;
        if rest.outcome.Aborted? {
          assert replies[1..][|rest.requests| - 1] == replies[|rest.requests|];
        }
      } else {
        assert run.store == st.store && run.outcome == st.outcome && |run.requests| == 1;
      }
    }
  }

  /**
    One page of the task's loop and one page of the catalog loop on the same
    reply go on together and end the same way, once a safe import cannot abort.
   */
  lemma StepsAgree(c: Client, cur: Cursor, n: Counters, s: Store, importer: Importer, parent: CategoryRef,
                   acc: seq<Asset>, reply: Reply)
    requires Workable(s, parent) && SafeImporter(importer, parent)
    requires n.downloaded == |acc|
    ensures var st := PageStep(cur, n, s, importer, ReadPage(c, cur, reply));
      var f := FetchStep(c, cur, acc, reply);
      && Workable(st.store, parent)
      && (st.Continue? <==> f.More?)
      && (st.Continue? ==> st.cursor == f.cursor && st.counters.downloaded == |f.assets|)
      && (st.Stop? ==>
            && (st.outcome.Finished? <==> f.outcome.Complete?)
            && (st.outcome.Aborted? <==> f.outcome.Failed?))
  {
    PageStepSafe(cur, n, s, importer, parent, ReadPage(c, cur, reply));
  }

  /**
    `get_all_metadata` and `get_all_catalog_content` follow the same paging:
    on a workable store with a safe import, and with as many assets gathered
    as downloaded, the task sends exactly the requests the client's own loop
    sends, and finishes, aborts or runs out of replies exactly when that loop
    completes, fails or runs out.
   */
  lemma {:induction false} MetadataFollowsCatalog(c: Client, cur: Cursor, n: Counters, s: Store, importer: Importer,
                                                  parent: CategoryRef, acc: seq<Asset>, replies: seq<Reply>)
    requires Workable(s, parent) && SafeImporter(importer, parent)
    requires n.downloaded == |acc|
    ensures var run := MetadataFrom(c, cur, n, s, importer, replies);
      var cat := CatalogFrom(c, cur, acc, replies);
      && run.requests == cat.requests
      && (run.outcome.Finished? <==> cat.outcome.Complete?)
      && (run.outcome.Aborted? <==> cat.outcome.Failed?)
      && (run.outcome.Unanswered? <==> cat.outcome.OutOfReplies?)
    decreases |replies|
  {
    if |replies| > 0 {
      var st := PageStep(cur, n, s, importer, ReadPage(c, cur, replies[0]));
      var f := FetchStep(c, cur, acc, replies[0]);
      StepsAgree(c, cur, n, s, importer, parent, acc, replies[0]);
      MetadataStep(c, cur, n, s, importer, replies);
      CatalogStep(c, cur, acc, replies);
      if st.Continue? {
        MetadataFollowsCatalog(c, st.cursor, st.counters, st.store, importer, parent, f.assets, replies[1..]);
      }
    }
  }

  /** One page of the loop, unfolded: the request it sends, then either its outcome or the rest of the run. */
  lemma MetadataStep(c: Client, cur: Cursor, n: Counters, s: Store, importer: Importer, replies: seq<Reply>)
    requires |replies| > 0
    ensures var st := PageStep(cur, n, s, importer, ReadPage(c, cur, replies[0]));
      var run := MetadataFrom(c, cur, n, s, importer, replies);
      var request := CatalogRequest(c, AsQuery(cur));
      && (st.Stop? ==> run == SyncRun(st.outcome, st.store, st.counters, [request]))
      && (st.Continue? ==>
            var rest := MetadataFrom(c, st.cursor, st.counters, st.store, importer, replies[1..]);
            run == SyncRun(rest.outcome, rest.store, rest.counters, [request] + rest.requests))
  {
  }

  /** Moving one sent request from the rest of a run to the requests already sent. */
  lemma RunPrefix(whole: SyncRun, sent: seq<Request>, request: Request, here: SyncRun, rest: SyncRun)
    requires whole == SyncRun(here.outcome, here.store, here.counters, sent + here.requests)
    requires here == SyncRun(rest.outcome, rest.store, rest.counters, [request] + rest.requests)
    ensures whole == SyncRun(rest.outcome, rest.store, rest.counters, (sent + [request]) + rest.requests)
  {
    assert sent + ([request] + rest.requests) == (sent + [request]) + rest.requests;
  }

  /**
    The `foreach` over one page's assets: each is imported in turn and
    counted as a success or a failure; an exception ends the page.
   */
  method ImportPage(s: Store, success0: nat, failed0: nat, xs: seq<Asset>, importer: Importer)
    returns (store: Store, success: nat, failed: nat, failure: Option<Failure>)
    ensures Batch(store, success, failed, failure) == ImportFrom(Batch(s, success0, failed0, None), xs, importer)
  {
    ghost var b := ImportFrom(Batch(s, success0, failed0, None), xs, importer);
    store, success, failed, failure := s, success0, failed0, None;
    var j := 0;
    while failure.None? && j < |xs|
      invariant 0 <= j <= |xs|
      invariant failure.None? ==> b == ImportFrom(Batch(store, success, failed, None), xs[j..], importer)
      invariant failure.Some? ==> b == Batch(store, success, failed, failure)
      decreases |xs| - j
    {
      ghost var bj := Batch(store, success, failed, None);
      assert xs[j..][1..] == xs[j + 1..];
      match importer(store, xs[j]) {
        case Thrown(f) =>
          failure := Some(f);
        case Ok(imp) =>
          store := imp.store;
          if imp.result.success {
            success := success + 1;
          } else {
            failed := failed + 1;
          }
      }
      assert Batch(store, success, failed, failure) == ImportStep(bj, xs[j], importer);
      j := j + 1;
    }
    if failure.None? {
      assert xs[j..] == [];
    }
  }

  /**
    The body of the loop for one reply, as the source orders it: read the
    page, count it, advance the data when more is announced, then import the
    page's assets.
   */
  method ProcessPage(c: Client, cur: Cursor, n: Counters, s: Store, importer: Importer, reply: Reply)
    returns (st: Step)
    ensures st == PageStep(cur, n, s, importer, ReadPage(c, cur, reply))
  {
    var page := ReadPage(c, cur, reply);
    match page {
      case PageFailed(f) =>
        st := Stop(Aborted(f), s, n);
      case PageOf(xs, headers) =>
        var downloaded := n.downloaded + |xs|;
        var more := downloaded < TotalCount(headers);
        var next := if more then Advance(cur, headers) else cur;
        var store, success, failed, failure := ImportPage(s, n.success, n.failed, xs, importer);
        var counted := Counters(downloaded, success, failed);
        if failure.Some? {
          st := Stop(Aborted(failure.value), store, counted);
        } else if more {
          st := Continue(next, store, counted);
        } else {
          st := Stop(Finished, store, counted);
        }
    }
  }

  /**
    `get_all_metadata`: the paging loop, written as the source writes it,
    computing exactly the reference run. The task passes
    `AssetImporter(parent, thumbnail, env)` as the import.
   */
  method GetAllMetadata(c: Client, s: Store, importer: Importer, updatedSince: Option<string>, max: int,
                        pagingRequestId: Option<string>, replies: seq<Reply>)
    returns (run: SyncRun)
    ensures run == MetadataFrom(c, MetadataCursor(updatedSince, max, pagingRequestId), Counters(0, 0, 0), s,
                                importer, replies)
    ensures !run.outcome.Aborted? ==> run.counters.success + run.counters.failed == run.counters.downloaded
  {
    var cur := MetadataCursor(updatedSince, max, pagingRequestId);
    ghost var whole := MetadataFrom(c, cur, Counters(0, 0, 0), s, importer, replies);
    var store := s;
    var counters := Counters(0, 0, 0);
    var requests: seq<Request> := [];
    var i := 0;
    var ended: Option<SyncOutcome> := None;
    while ended.None? && i < |replies|
      invariant 0 <= i <= |replies|
      invariant ended.None? ==>
        var rest := MetadataFrom(c, cur, counters, store, importer, replies[i..]);
        whole == SyncRun(rest.outcome, rest.store, rest.counters, requests + rest.requests)
      invariant ended.Some? ==> whole == SyncRun(ended.value, store, counters, requests)
      decreases |replies| - i
    {
      MetadataStep(c, cur, counters, store, importer, replies[i..]);
      assert replies[i..][1..] == replies[i + 1..];
      ghost var here := MetadataFrom(c, cur, counters, store, importer, replies[i..]);
      ghost var sent := requests;
      requests := requests + [CatalogRequest(c, AsQuery(cur))];
      var st := ProcessPage(c, cur, counters, store, importer, replies[i]);
      match st {
        case Stop(outcome, t, m) =>
          assert here == SyncRun(outcome, t, m, [CatalogRequest(c, AsQuery(cur))]);
          ended, store, counters := Some(outcome), t, m;
        case Continue(next, t, m) =>
          ghost var rest := MetadataFrom(c, next, m, t, importer, replies[i + 1..]);
          assert here == SyncRun(rest.outcome, rest.store, rest.counters, [CatalogRequest(c, AsQuery(cur))] + rest.requests);
          RunPrefix(whole, sent, CatalogRequest(c, AsQuery(cur)), here, rest);
          cur, store, counters := next, t, m;
      }
      i := i + 1;
    }
    if ended.None? {
      assert replies[i..] == [];
    }
    run := SyncRun(if ended.Some? then ended.value else Unanswered, store, counters, requests);
    MetadataCounts(c, MetadataCursor(updatedSince, max, pagingRequestId), Counters(0, 0, 0), s, importer, replies);
  }

  // ---------------------------------------------------------------------------
  // the task

  /** The plugin settings the task reads; an unset setting is the empty string. */
  datatype Config = Config(
    category: CategoryRef,
    baseurl: string,
    orgid: string,
    bearer: string,
    max: string,
    updatedsince: string,
    coursethumbnail: string)

  /** Why the task skipped its run, in the order the settings are checked. */
  datatype SkipReason = CategoryMissing | BaseUrlMissing | OrgIdMissing | BearerMissing

  /** How `execute` ends: with a return value, or with an uncaught PHP Error. */
  datatype TaskEnd = Returned(value: bool) | Crashed(error: Failure) | Waiting

  datatype Execution = Execution(
    end: TaskEnd,
    skipped: Option<SkipReason>,
    config: Config,
    store: Store,
    requests: seq<Request>)

  /** The first missing setting, if any. */
  function MissingSetting(config: Config): (r: Option<SkipReason>)
    ensures r == Some(CategoryMissing) <==> EmptyRef(config.category)
    ensures r == Some(BaseUrlMissing) <==> !EmptyRef(config.category) && EmptyStr(config.baseurl)
    ensures r == Some(OrgIdMissing) <==>
      !EmptyRef(config.category) && !EmptyStr(config.baseurl) && EmptyStr(config.orgid)
    ensures r == Some(BearerMissing) <==>
      !EmptyRef(config.category) && !EmptyStr(config.baseurl) && !EmptyStr(config.orgid) && EmptyStr(config.bearer)
    ensures r == None <==>
      !EmptyRef(config.category) && !EmptyStr(config.baseurl) && !EmptyStr(config.orgid) && !EmptyStr(config.bearer)
  {
    if EmptyRef(config.category) then Some(CategoryMissing)
    else if EmptyStr(config.baseurl) then Some(BaseUrlMissing)
    else if EmptyStr(config.orgid) then Some(OrgIdMissing)
    else if EmptyStr(config.bearer) then Some(BearerMissing)
    else None
  }

  /** The run `execute` starts: no paging id, the configured start date and page size. */
  function TaskRun(config: Config, s: Store, env: Env, replies: seq<Reply>): SyncRun {
    MetadataFrom(
      Client(config.baseurl, config.orgid, config.bearer),
      MetadataCursor(Some(config.updatedsince), IntVal(config.max), None),
      Counters(0, 0, 0), s, AssetImporter(config.category, !EmptyStr(config.coursethumbnail), env), replies)
  }

  /**
    How `execute` ends once the sync ran: a finished run moves the watermark
    to the start time and returns true; an exception is caught and returns
    false with the watermark untouched (the imports done before it stay); a
    PHP Error is not an exception and escapes the task.
   */
  function Conclude(config: Config, start: string, run: SyncRun): (r: Execution)
    ensures r.skipped.None? && r.store == run.store && r.requests == run.requests
    ensures r.end == Returned(true) <==> run.outcome.Finished?
    ensures r.end == Returned(false) <==> run.outcome.Aborted? && run.outcome.failure.IsException()
    ensures r.end.Crashed? <==> run.outcome.Aborted? && !run.outcome.failure.IsException()
    ensures r.end == Returned(true) ==> r.config == config.(updatedsince := start)
    ensures r.end != Returned(true) ==> r.config == config
  {
    match run.outcome
    case Finished => Execution(Returned(true), None, config.(updatedsince := start), run.store, run.requests)
    case Aborted(f) =>
      if f.IsException() then Execution(Returned(false), None, config, run.store, run.requests)
      else Execution(Crashed(f), None, config, run.store, run.requests)
    case Unanswered => Execution(Waiting, None, config, run.store, run.requests)
  }

  /**
    `execute`: skip with false when a setting is missing, checked in the
    order category, base URL, organisation id, bearer token; otherwise run
    the sync and conclude.
   */
  function Execute(config: Config, s: Store, start: string, env: Env, replies: seq<Reply>): (r: Execution)
    ensures r.skipped == MissingSetting(config)
    ensures r.skipped.Some? ==> r == Execution(Returned(false), r.skipped, config, s, [])
    ensures r.skipped.None? ==> r == Conclude(config, start, TaskRun(config, s, env, replies))
    ensures r.end == Returned(true) <==> r.skipped.None? && TaskRun(config, s, env, replies).outcome.Finished?
    ensures r.config == (if r.end == Returned(true) then config.(updatedsince := start) else config)
    ensures r.end.Crashed? ==> !r.end.error.IsException()
  {
    match MissingSetting(config)
    case Some(reason) => Execution(Returned(false), Some(reason), config, s, [])
    case None => Conclude(config, start, TaskRun(config, s, env, replies))
  }

  /** The task's own run, with `import_percio_asset` as the import, is safe on a workable store. */
  lemma TaskRunSafe(config: Config, s: Store, env: Env, replies: seq<Reply>)
    requires Workable(s, config.category)
    ensures SafeRun(TaskRun(config, s, env, replies), config.category, replies)
  {
    AssetImporterSafe(config.category, !EmptyStr(config.coursethumbnail), env);
    MetadataSafe(Client(config.baseurl, config.orgid, config.bearer),
                 MetadataCursor(Some(config.updatedsince), IntVal(config.max), None), Counters(0, 0, 0), s,
                 AssetImporter(config.category, !EmptyStr(config.coursethumbnail), env), config.category, replies);
  }

  /**
    With every setting present and a store the sync can work on, the task
    never crashes on its own imports: it crashes only when a page's body was a
    JSON object, returns false only when the server refused a page, and
    leaves the store workable.
   */
  lemma ExecuteOnWorkableStore(config: Config, s: Store, start: string, env: Env, replies: seq<Reply>)
    requires MissingSetting(config).None?
    requires Workable(s, config.category)
    ensures SafeExecution(Execute(config, s, start, env, replies), config.category, replies)
  {
    var run := TaskRun(config, s, env, replies);
    assert Execute(config, s, start, env, replies) == Conclude(config, start, run);
    TaskRunSafe(config, s, env, replies);
    ConcludeSafe(config, start, run, replies);
  }

  /**
    What the task guarantees on a workable store: the store stays workable, it
    crashes only when the last page's body was a JSON object, and it returns
    false only when the server refused the last page.
   */
  predicate SafeExecution(r: Execution, parent: CategoryRef, replies: seq<Reply>) {
    && Workable(r.store, parent)
    && (r.end.Crashed? || r.end == Returned(false) ==>
          && 1 <= |r.requests| <= |replies|
          && var last := replies[|r.requests| - 1];
             (r.end.Crashed? ==> last.errno == 0 && last.status < 400 && last.decoded.JsonObject?)
             && (r.end == Returned(false) ==> last.errno != 0 || last.status >= 400))
  }

  /** Concluding a safe run is a safe execution. */
  lemma ConcludeSafe(config: Config, start: string, run: SyncRun, replies: seq<Reply>)
    requires SafeRun(run, config.category, replies)
    ensures SafeExecution(Conclude(config, start, run), config.category, replies)
  {
    var r := Conclude(config, start, run);
    assert r.store == run.store && r.requests == run.requests;
    if r.end.Crashed? || r.end == Returned(false) {
      assert run.outcome.Aborted?;
    }
  }
}
